=== FILE: README.md ===
# Physiotherapy client records: data access and pending records

A Dafny model of the data-access and consistency logic of a small clinic
application. The clinic keeps client files (personal data plus a history of
treatment visits) in a hosted relational store. A booking integration files
*pending records* for appointments whose client has no file yet. From the
pending-records panel, a record is either completed, deleted, or turned into a
new client file pre-filled with the name it carries.

The store is a value, `Tables.Store`, holding the three tables
`clients_records`, `visits` and `pending_records` as sequences of rows in
storage order. Every query is a pure function over that value. Each round trip
to the store takes a flag saying whether the store answered with an error.
Inserts take the id and the creation time the store would assign. The
database schema is not part of the source, which declares only row types.
The model assumes these constraints, and the store enforces them on
inserts:

- primary keys on the three tables;
- one pending record per appointment id;
- a foreign key from `visits.client_id` to `clients_records.id`.

The predicate `Tables.Wellformed` states these constraints. Every write is
shown to preserve it.

Modules, following the program's structure:

- `Domain`, `Tables`: the entities (`Client`, `Visit`, `PendingRecord`), the
  table rows, and the store.
- `Seqs`, `Text`: the `WHERE` filter, the `ORDER BY` sort (a stable insertion
  sort), and the JavaScript string operations the code relies on. These are
  UTF-16 length, `trim`, `split(/\s+/)`, `join`, and case-insensitive
  substring search.
- `ClientService`: the client gateway. It covers mapping, search, read with
  history, create, sparse update, and adding a visit.
- `Data`: the server entry points. Creation turns a missing client into a
  thrown `Error("Failed to create client")`. Searching, reading, updating and
  adding a visit are the gateway's functions unchanged.
- `PendingRecords`: the pending-record queue.
- `PendingRecordsRoute`: the `POST`/`GET /api/pending-records` endpoint.
- `Validation`, `ClientForm`, `VisitHistory`: the form schemas, default
  values, the submit branches, and the visit ordering.
- `PendingRecordsList`, `NewClientPage`: the panel, and the create-from-pending
  flow.

`updateClient` ends with `.single()`. An update that matches no row is
therefore an error, and it returns `undefined` with the store unchanged. It is
not a silent success. The same holds for a patch that supplies no field: the
`updates` object stays `{}`, the empty update returns no row, and
`.single()` fails.

The end-to-end lemma `NewClientPage.CreateFromPendingRecord` requires the
record's id to be non-empty. `handleSave` tests `if (pendingId)`, so a record
with an empty id would be left active.

## Model

| member | source | states |
|---|---|---|
| ClientService.ClientToRow | src/services/clientService.supabase.ts:30-48 | reading back the insert columns built from a client's fields gives exactly those fields, including the renamed `birth_date` and `postal_code` |
| ClientService.ColumnsRoundTrip | src/services/clientService.supabase.ts:7-48 | writing back the fields read from a row reproduces the row's columns |
| ClientService.InsertedRowReadsBack | src/services/clientService.supabase.ts:7-27 | a row inserted from a client's fields reads back as that client under the row id, with an empty history |
| ClientService.NameOrderIsTotalPreorder | src/services/clientService.supabase.ts:57 | ordering rows by name is total and transitive, so the sorted search result is well defined |
| ClientService.SearchClients | src/services/clientService.supabase.ts:50-65 | the empty query returns nothing and a store error returns nothing; otherwise the result is a permutation of the clients whose name, surname, phone or DNI contains the query ignoring case, ordered by name, each without history |
| ClientService.History | src/services/clientService.supabase.ts:81-97 | the history is a permutation of exactly that client's visits, latest date first |
| ClientService.GetClient | src/services/clientService.supabase.ts:67-105 | nothing exactly when the client query fails or does not match one row; otherwise that row's client, whose history is empty when the visit query fails and otherwise is that client's visits, latest first |
| ClientService.GetClientFinds | src/services/clientService.supabase.ts:67-100 | under the primary key, a stored client is found, with the fields of its row |
| ClientService.GetClientMissing | src/services/clientService.supabase.ts:67-78 | an id no row carries gives `undefined` |
| ClientService.CreateClient | src/services/clientService.supabase.ts:107-122 | `null`, with the store unchanged, exactly on a store error or an id in use; otherwise exactly one row is appended and the client returned carries the given fields, the new id and no history |
| ClientService.CreateClientKeepsWellformed | src/services/clientService.supabase.ts:107-122 | creating a client keeps the primary keys and the visit foreign key |
| ClientService.CreateThenGet | src/services/clientService.supabase.ts:107-122 | after a successful create, reading the new id gives the client with every field as given and an empty history |
| ClientService.PatchToUpdates | src/services/clientService.supabase.ts:128-144 | the column update built from a partial client changes every row's client exactly as the partial update says: supplied fields replaced, absent fields kept |
| ClientService.NoChangesKeepsClient | src/services/clientService.supabase.ts:128-144 | a partial update with every field `undefined` changes nothing |
| ClientService.CityOnlyPatch | src/services/clientService.supabase.ts:136 | updating only the city changes only the city |
| ClientService.PatchIdempotent | src/services/clientService.supabase.ts:128-144 | applying the same partial update twice is the same as applying it once |
| ClientService.UpdateClient | src/services/clientService.supabase.ts:124-159 | on a store error, for a patch that supplies no field, or when not exactly one row matches, the result is `undefined` and the store is unchanged; otherwise only the matching row changes, by the patch, ids and other tables are untouched, and the result is the client read again |
| ClientService.UpdateThenRead | src/services/clientService.supabase.ts:146-158 | an update without store error, by a patch that supplies at least one field, returns the client as it was with the patch applied to its fields and its history kept |
| ClientService.UpdateClientKeepsWellformed | src/services/clientService.supabase.ts:124-159 | updating keeps the primary keys and the visit foreign key |
| ClientService.AddVisit | src/services/clientService.supabase.ts:161-189 | on a store error, an unknown client (foreign key) or an id in use, the result is `undefined` and no visit is added; otherwise exactly one visit row with the given date, notes and price is appended for that client and the client is read again |
| ClientService.AddVisitKeepsWellformed | src/services/clientService.supabase.ts:161-189 | adding a visit keeps the primary keys and the visit foreign key |
| ClientService.AddVisitExtendsHistory | src/services/clientService.supabase.ts:161-184 | after a successful add, the returned history is the old history plus the new visit, still latest first, and the client's fields are untouched |
| ClientService.ClientVisitsAppend | src/services/clientService.supabase.ts:81-85 | a visit row appended for a client extends that client's visits by exactly that visit |
| ClientService.AddVisitStoredButUnreported | src/services/clientService.supabase.ts:166-184 | when the insert succeeds but the re-read fails, `addVisit` returns `undefined` although the visit is stored |
| Data.CreateClient | src/lib/data.ts:22-28 | throws "Failed to create client" exactly when the gateway returns `null`, otherwise returns the gateway's client unchanged, and leaves the store as the gateway left it |
| PendingRecords.GetPendingRecords | src/services/pendingRecordsService.ts:14-34 | a store error gives the empty list; otherwise the list is a permutation of exactly the records not completed, earliest appointment first |
| PendingRecords.CreatePendingRecord | src/services/pendingRecordsService.ts:36-64 | `null`, with the store unchanged, exactly on a store error, an id in use, or an appointment id that already has a record; otherwise one row is appended and the record returned carries the given name, appointment id and date, the new id, the creation time and `isCompleted = false` |
| PendingRecords.CompletePendingRecord | src/services/pendingRecordsService.ts:66-78 | reports success exactly when the store answers; every row with the id gets the flag set, whatever it was, and every other row and table is unchanged |
| PendingRecords.DeletePendingRecord | src/services/pendingRecordsService.ts:80-92 | reports success exactly when the store answers; afterwards no row carries the id, and every row with another id keeps its multiplicity |
| PendingRecords.CompleteIdempotent | src/services/pendingRecordsService.ts:66-78 | completing twice reports success both times and leaves the same store as completing once |
| PendingRecords.ListedFromActiveRow | src/services/pendingRecordsService.ts:14-34 | every listed record is the projection of a stored row that is not completed |
| PendingRecords.CompletedLeavesActiveList | src/services/pendingRecordsService.ts:14-78 | after a successful complete, no record with that id is in the active list |
| PendingRecords.DeletedLeavesActiveList | src/services/pendingRecordsService.ts:14-92 | after a successful delete, no record with that id is in the active list |
| PendingRecords.ListReadsOnlyPending | src/services/pendingRecordsService.ts:14-19 | the active list depends on the pending records alone |
| PendingRecords.CreatedIsActive | src/services/pendingRecordsService.ts:14-64 | a record just created is in the next active list |
| PendingRecords.DeleteMissingReportsSuccess | src/services/pendingRecordsService.ts:80-92 | deleting an id no record carries reports success and changes nothing |
| PendingRecords.CompleteKeepsWellformed | src/services/pendingRecordsService.ts:66-78 | completing keeps the primary key of `pending_records` and the one-record-per-appointment constraint |
| PendingRecords.DeleteKeepsWellformed | src/services/pendingRecordsService.ts:80-92 | deleting keeps the primary key of `pending_records` and the one-record-per-appointment constraint |
| PendingRecords.CreateKeepsWellformed | src/services/pendingRecordsService.ts:36-64 | creating keeps the primary key of `pending_records` and the one-record-per-appointment constraint |
| PendingRecords.OneRecordPerAppointment | src/services/pendingRecordsService.ts:36-64 | once a record exists for an appointment, a second insert for that appointment id is refused and leaves the store as it was |
| PendingRecordsRoute.Post | src/app/api/pending-records/route.ts:3-49 | a body that cannot be parsed, or that is JSON `null` and so cannot be destructured, gives 500 "Internal server error"; 400 with the required-field list exactly when one of the three text fields is missing, `null` or empty, with the store untouched; with the fields present the store is exactly what `createPendingRecord` leaves; 201 with the created record exactly when the fields are present and the insert succeeds; 500 "Failed to create pending record" otherwise |
| PendingRecordsRoute.Get | src/app/api/pending-records/route.ts:52-68 | always 200 with `success: true` and the active list, so a store error reads as success with no records |
| PendingRecordsRoute.PostThenGet | src/app/api/pending-records/route.ts:3-68 | a record filed through `POST` appears in the next `GET` |
| ClientForm.ValidIffNoFieldFails | src/components/client-form.tsx:30-46 | the schema accepts a form exactly when no field fails its own check |
| ClientForm.FieldChecks | src/components/client-form.tsx:31-45 | a field's checks report errors exactly when the field fails, each with that field's Catalan message |
| ClientForm.VerdictOfAllFields | src/components/client-form.tsx:30-46 | collecting the checks of a list holding every field reports an error for a field exactly when that field fails |
| ClientForm.ValidateClient | src/components/client-form.tsx:30-46 | a field has an error exactly when it fails its check: name and surname shorter than 2, no birth date, DNI not 9 long, phone shorter than 9, invalid email, empty address, city or reason, postal code not 5 long; each error has its field's message; no error exactly for a valid form |
| ClientForm.OptionalFieldsNeverFail | src/components/client-form.tsx:40-44 | profession, pathologies, surgical interventions, medication and family history never get an error |
| ClientForm.ToClientData | src/components/client-form.tsx:114-117 | the data saved from a form with a birth date gives the form back |
| ClientForm.FormRoundTrip | src/components/client-form.tsx:83-117 | a client's fields shown in the form and saved unchanged are the same fields |
| ClientForm.FullPatch | src/components/client-form.tsx:119-120 | the edit-mode update supplies every field, so it is never the empty patch, and applied to any client it yields exactly the form's data |
| ClientForm.DefaultValues | src/components/client-form.tsx:83-99 | with a client, every field comes from the client; without one, name and surname come from the pre-fill or are empty and every other field is empty |
| ClientForm.ApplyInitialData | src/components/client-form.tsx:103-110 | the pre-fill effect overwrites name and surname only with non-empty values and leaves every other field alone |
| ClientForm.PrefillAgreesWithDefaults | src/components/client-form.tsx:83-110 | in create mode, the effect applied to the blank defaults (the pre-fill arriving after the form is built, as on the new-client page) gives the defaults built with the pre-fill, and applying it again changes nothing, so the form shows the same either way |
| ClientForm.EditStartsFromClient | src/components/client-form.tsx:83-120 | without a pre-fill, editing starts from exactly the client's fields |
| ClientForm.Submit | src/components/client-form.tsx:112-144 | rejected exactly for an invalid form, with the schema's errors and no store change; edit mode saves exactly what `updateClient` leaves with every field of the form, shows the client exactly when `updateClient` returns one and then that client, and touches no other table; create mode only creates, opens the new client's page exactly when the create succeeds, reports failure with the store unchanged, and runs the success callback only after a successful create |
| ClientForm.EditSavesFormValues | src/components/client-form.tsx:119-129 | editing a stored client with a valid form and no store error shows the client with the form's fields and its history kept |
| VisitHistory.ValidateVisit | src/components/visit-history.tsx:30-34 | a field has an error exactly when it fails: no date, empty notes, or a price that is not a number or not positive; a price that is not a number gets the coercion message |
| VisitHistory.VisitPayload | src/components/visit-history.tsx:62-66 | the payload of a valid form carries exactly its date, notes and price, and the price is positive |
| VisitHistory.PayloadRoundTrip | src/components/visit-history.tsx:62-66 | a visit with positive price and notes, shown in the form and submitted, gives the same payload |
| VisitHistory.ResetFormNeedsNotes | src/components/visit-history.tsx:81 | the form reset after a successful add fails the schema only for its empty notes, with the notes message |
| VisitHistory.SubmitVisit | src/components/visit-history.tsx:57-94 | rejected exactly for an invalid form, with no store change; for a valid form the store is what `addVisit` leaves, the client is handed on exactly when `addVisit` returns one, and it is that client, after which the dialog closes with the reset form; every undefined result (store error, unknown client, id in use, failed re-read) takes the error path and leaves the dialog as it was; a successful insert appends exactly the payload's visit |
| VisitHistory.FailedNoticeAfterStoredVisit | src/components/visit-history.tsx:70-93 | when the re-read after a successful insert fails, the error notice shows and the dialog keeps its values although the visit is stored |
| VisitHistory.VisitsErrorHandsOnEmptyHistory | src/components/visit-history.tsx:70-93 | when only the visits query of the re-read fails, the visit is stored and the panel still receives the client, with an empty history |
| VisitHistory.SubmitExtendsHistory | src/components/visit-history.tsx:70-79 | with no store error, the client handed on has the old history plus the submitted visit |
| VisitHistory.SortedVisits | src/components/visit-history.tsx:96 | the sorted visits are a permutation of the given visits, latest date first |
| VisitHistory.DateOrderUnique | src/components/visit-history.tsx:96 | two latest-first permutations of the same visits have the same date at every position |
| VisitHistory.SortedVisitsKeepsHistoryOrder | src/components/visit-history.tsx:96 | re-sorting the history that `getClient` returns keeps its order of dates |
| PendingRecordsList.SplitClientName | src/components/pending-records-list.tsx:73-76 | the first name is the first whitespace-free word of the trimmed name, empty exactly for an all-whitespace name; the surname is the rest after it with whitespace runs collapsed, empty for one word; with a surname, first name, space and surname give the trimmed name with whitespace runs collapsed |
| PendingRecordsList.SingleWordName | src/components/pending-records-list.tsx:74-76 | one word surrounded by any whitespace becomes the first name, with an empty surname |
| PendingRecordsList.HandleCreateRecord | src/components/pending-records-list.tsx:72-85 | the navigation carries the record's id and the split name |
| PendingRecordsList.HandleComplete | src/components/pending-records-list.tsx:53-60 | the store is exactly what `completePendingRecord` leaves; the list is reloaded only when completing reports success, and the reloaded list no longer holds the record |
| PendingRecordsList.HandleDelete | src/components/pending-records-list.tsx:62-70 | the store is exactly what `deletePendingRecord` leaves; the list is reloaded only when deleting reports success; afterwards no row carries the id and the reloaded list does not hold it |
| Text.JoinFieldsIsCollapse | src/components/pending-records-list.tsx:74-76 | splitting on whitespace runs and joining with single spaces equals replacing every whitespace run by one space |
| Text.Contains | src/services/clientService.supabase.ts:56 | the substring test holds exactly when the pattern occurs at some position |
| NewClientPage.InitialDataFrom | src/app/clients/new/page.tsx:25-30 | the pre-fill is set exactly when the name or surname parameter is non-empty, and then holds no empty value |
| NewClientPage.PrefillFromQuery | src/app/clients/new/page.tsx:20-35 | opening the page with a query, whose pre-fill reaches the form through the effect after it was built blank, pre-fills its name and surname and nothing else |
| NewClientPage.PrefillFromPendingRecord | src/components/pending-records-list.tsx:72-85 | opening a pending record pre-fills the split name and nothing else |
| NewClientPage.HandleSaveCompletesThatRecord | src/app/clients/new/page.tsx:37-42 | `handleSave` changes only pending rows carrying the URL's `pendingId`, and changes nothing without one or on a store error |
| NewClientPage.SaveNewClient | src/app/clients/new/page.tsx:37-56 | the page opens the new client exactly when the form is valid and the create succeeds; then the client row is appended and the pending records are those `handleSave` leaves |
| NewClientPage.CreatedAndCompleted | src/app/clients/new/page.tsx:37-56 | a store with the new client row and the record completed reads the client back with its fields and no visits, and does not list the record |
| NewClientPage.SaveCompletesNamedRecord | src/app/clients/new/page.tsx:37-56 | saving a valid form from a URL naming a record, with no store error, opens the new client, which reads back with the form's fields, and the record leaves the active list |
| NewClientPage.CreateFromPendingRecord | src/components/pending-records-list.tsx:72-85 | the whole flow from a pending record creates the client and takes the record off the active list |
| NewClientPage.CompletionFailureKeepsRecordActive | src/app/clients/new/page.tsx:37-42 | a failed completion is ignored: the client stays created, its page opens, and the record stays in the active list |

## Left out

- Data.SearchClients, Data.GetClient, Data.UpdateClient, Data.AddVisit: these have no contract of their own. Each body is the gateway call, so the `ClientService` contracts apply to them unchanged.
- The store client and every network round trip: the store is a value, and each round trip's error is an input flag.
- Exceptions thrown inside the gateway: they are folded into the same failure flags as error answers.
- The `ilike` wildcards `%` and `_` inside a query, and the interpolation of the query into the filter string: search is plain case-insensitive substring matching.
- Case folding: it covers ASCII and Latin-1 capitals only. Other Unicode case mappings are not modelled.
- Ordering by name: it uses code-point order, not the database's collation.
- The email grammar of the schema: it is a parameter `isEmail`, not modelled.
- Date parsing, ISO conversion and locale formatting: dates are integer timestamps. This also leaves out the birth-date parsing fallbacks, and the date formatting passed to `onSave`.
- Prices are reals: currency formatting, `Number(...)` coercion and non-finite values are not modelled. A price input that is not a number is its own case.
- `created_at` and `updated_at` of client rows are not modelled. The creation time of a pending record is a parameter.
- The default `false` of `is_completed`: the schema is not part of the source, so it is an assumption.
- The schema constraints in `Tables.Wellformed` are assumptions for the same reason. These are the primary keys, unique appointment ids, and the foreign key from `visits` to `clients_records`. `ClientService.AddVisit` fails on an unknown client only because of the assumed foreign key. `PendingRecords.CreatePendingRecord` fails on a repeated appointment id only because of the assumed unique constraint.
- `POST` body fields of a JSON type other than text: they are not modelled. Absent and `null` are one case. An array or a scalar body reads as an object with every field absent.
- How the store reads the `appointmentDate` text: it is a parameter `dateOf` of `PendingRecordsRoute.Post`, since date parsing is not modelled.
- Encoding and decoding of the URL parameters: they are taken to give the values back.
- React rendering, hooks, loading state, toasts, router refresh and navigation, console logging, and the debounced search: none of these are modelled.
- Ordering between concurrent calls: each operation is one step on the store.
- VisitHistory.SortedVisits: it states the order of dates, not the order among visits with the same date. Ties are left to the comparator, which here is an insertion sort.

=== FILE: client_form.dfy ===
/** The client file form: its validation schema, where its initial values come
    from, and what submitting it does in create and in edit mode. */
module ClientForm {
  import opened Domain
  import opened Tables
  import opened Validation
  import Text
  import ClientService
  import Data

  /** The form's values. The birth date is empty until one is picked; the
      other inputs always hold text. */
  datatype FormValues = FormValues(
    name: string,
    surname: string,
    birthDate: Option<Date>,
    dni: string,
    phone: string,
    email: string,
    address: string,
    city: string,
    postalCode: string,
    profession: string,
    pathologies: string,
    surgicalInterventions: string,
    medication: string,
    familyHistory: string,
    reasonForConsultation: string)

  const NameRequired := "El nom és requerit."
  const SurnameRequired := "Els cognoms són requerits."
  const BirthDateRequired := "La data de naixement és requerida."
  const DniLength := "El DNI ha de tenir 9 caràcters."
  const PhoneLength := "El telèfon ha de tenir almenys 9 dígits."
  const EmailInvalid := "L'email no és vàlid."
  const AddressRequired := "L'adreça és requerida."
  const CityRequired := "La població és requerida."
  const PostalCodeLength := "El codi postal ha de tenir 5 dígits."
  const ReasonRequired := "El motiu de la consulta és requerit."

  /** The fields of `clientSchema`. */
  datatype ClientField =
    | Name | Surname | BirthDate | Dni | Phone | Email | Address | City | PostalCode
    | Profession | Pathologies | SurgicalInterventions | Medication | FamilyHistory | ReasonForConsultation
  {
    /** The fields the schema marks `.optional()`. */
    predicate IsOptional() {
      this in {Profession, Pathologies, SurgicalInterventions, Medication, FamilyHistory}
    }
  }

  /** The schema's fields in declaration order. */
  function SchemaFields(): seq<ClientField> {
    [Name, Surname, BirthDate, Dni, Phone, Email, Address, City, PostalCode,
                         Profession, Pathologies, SurgicalInterventions, Medication, FamilyHistory,
                         ReasonForConsultation]
  }

  /** Reference definition of a field the schema rejects. Lengths are
      JavaScript lengths; whether an address is a valid email is left to
      `isEmail`. */
  predicate Fails(v: FormValues, isEmail: string -> bool, f: ClientField) {
    match f
    case Name => Text.JsLength(v.name) < 2
    case Surname => Text.JsLength(v.surname) < 2
    case BirthDate => v.birthDate.None?
    case Dni => Text.JsLength(v.dni) != 9
    case Phone => Text.JsLength(v.phone) < 9
    case Email => !isEmail(v.email)
    case Address => v.address == ""
    case City => v.city == ""
    case PostalCode => Text.JsLength(v.postalCode) != 5
    case ReasonForConsultation => v.reasonForConsultation == ""
    case _ => false
  }

  /** A form the schema accepts. */
  predicate Valid(v: FormValues, isEmail: string -> bool) {
    && Text.JsLength(v.name) >= 2
    && Text.JsLength(v.surname) >= 2
    && v.birthDate.Some?
    && Text.JsLength(v.dni) == 9
    && Text.JsLength(v.phone) >= 9
    && isEmail(v.email)
    && v.address != ""
    && v.city != ""
    && Text.JsLength(v.postalCode) == 5
    && v.reasonForConsultation != ""
  }

  lemma ValidIffNoFieldFails(v: FormValues, isEmail: string -> bool)
    ensures Valid(v, isEmail) <==> forall f: ClientField :: !Fails(v, isEmail, f)
  {
    if !Valid(v, isEmail) {
      if Text.JsLength(v.name) < 2 { assert Fails(v, isEmail, Name); }
      else if Text.JsLength(v.surname) < 2 { assert Fails(v, isEmail, Surname); }
      else if v.birthDate.None? { assert Fails(v, isEmail, BirthDate); }
      else if Text.JsLength(v.dni) != 9 { assert Fails(v, isEmail, Dni); }
      else if Text.JsLength(v.phone) < 9 { assert Fails(v, isEmail, Phone); }
      else if !isEmail(v.email) { assert Fails(v, isEmail, Email); }
      else if v.address == "" { assert Fails(v, isEmail, Address); }
      else if v.city == "" { assert Fails(v, isEmail, City); }
      else if Text.JsLength(v.postalCode) != 5 { assert Fails(v, isEmail, PostalCode); }
      else { assert Fails(v, isEmail, ReasonForConsultation); }
    }
  }

  /** The message of a field's failed checks. */
  function Message(f: ClientField): string {
    match f
    case Name => NameRequired
    case Surname => SurnameRequired
    case BirthDate => BirthDateRequired
    case Dni => DniLength
    case Phone => PhoneLength
    case Email => EmailInvalid
    case Address => AddressRequired
    case City => CityRequired
    case PostalCode => PostalCodeLength
    case ReasonForConsultation => ReasonRequired
    case _ => ""
  }

  /** The checks the schema declares for one field, as zod runs them (the
      DNI and the postal code carry a minimum and a maximum), each as its
      error when it fails. */
  function FieldChecks(v: FormValues, isEmail: string -> bool, f: ClientField): (errors: seq<FieldError<ClientField>>)
    ensures errors != [] <==> Fails(v, isEmail, f)
    ensures forall e :: e in errors ==> e == FieldError(f, Message(f))
  {
    match f
    case Name => Check(Text.JsLength(v.name) >= 2, f, NameRequired)
    case Surname => Check(Text.JsLength(v.surname) >= 2, f, SurnameRequired)
    case BirthDate => Check(v.birthDate.Some?, f, BirthDateRequired)
    case Dni => Check(Text.JsLength(v.dni) >= 9, f, DniLength) + Check(Text.JsLength(v.dni) <= 9, f, DniLength)
    case Phone => Check(Text.JsLength(v.phone) >= 9, f, PhoneLength)
    case Email => Check(isEmail(v.email), f, EmailInvalid)
    case Address => Check(Text.JsLength(v.address) >= 1, f, AddressRequired)
    case City => Check(Text.JsLength(v.city) >= 1, f, CityRequired)
    case PostalCode =>
      Check(Text.JsLength(v.postalCode) >= 5, f, PostalCodeLength) + Check(Text.JsLength(v.postalCode) <= 5, f, PostalCodeLength)
    case ReasonForConsultation => Check(Text.JsLength(v.reasonForConsultation) >= 1, f, ReasonRequired)
    case _ => []
  }

  /** The errors of the given fields, field after field. */
  function CollectErrors(v: FormValues, isEmail: string -> bool, fields: seq<ClientField>): seq<FieldError<ClientField>> {
    if fields == [] then [] else FieldChecks(v, isEmail, fields[0]) + CollectErrors(v, isEmail, fields[1..])
  }

  /** An error of the collection comes from the checks of its own field, and
      every failed check of a listed field is in the collection. */
  lemma {:induction false} CollectErrorsMembers(v: FormValues, isEmail: string -> bool, fields: seq<ClientField>)
    ensures forall e :: e in CollectErrors(v, isEmail, fields) ==> e.field in fields && e in FieldChecks(v, isEmail, e.field)
    ensures forall f, e :: f in fields && e in FieldChecks(v, isEmail, f) ==> e in CollectErrors(v, isEmail, fields)
  {
    if fields != [] {
      CollectErrorsMembers(v, isEmail, fields[1..]);
      assert forall f :: f in fields ==> f == fields[0] || f in fields[1..];
    }
  }

  /** One field's verdict in the collection of a list that holds it. */
  lemma VerdictOfField(v: FormValues, isEmail: string -> bool, fields: seq<ClientField>, f: ClientField)
    requires f in fields
    requires forall e :: e in CollectErrors(v, isEmail, fields) ==> e.field in fields && e in FieldChecks(v, isEmail, e.field)
    requires forall e :: e in FieldChecks(v, isEmail, f) ==> e in CollectErrors(v, isEmail, fields)
    ensures HasError(CollectErrors(v, isEmail, fields), f) <==> Fails(v, isEmail, f)
  {
    var errors := CollectErrors(v, isEmail, fields);
    if Fails(v, isEmail, f) {
      var e := FieldChecks(v, isEmail, f)[0];
      assert e in errors;
      var i :| 0 <= i < |errors| && errors[i] == e;
    }
    if HasError(errors, f) {
      var i :| 0 <= i < |errors| && errors[i].field == f;
      assert errors[i] in FieldChecks(v, isEmail, f);
    }
  }

  /** Over a list holding every field, a field has an error exactly when
      the schema rejects it. */
  lemma VerdictOfAllFields(v: FormValues, isEmail: string -> bool, fields: seq<ClientField>)
    requires forall f: ClientField :: f in fields
    ensures forall f: ClientField :: HasError(CollectErrors(v, isEmail, fields), f) <==> Fails(v, isEmail, f)
    ensures forall e :: e in CollectErrors(v, isEmail, fields) ==> e.message == Message(e.field)
  {
    CollectErrorsMembers(v, isEmail, fields);
    forall f: ClientField ensures HasError(CollectErrors(v, isEmail, fields), f) <==> Fails(v, isEmail, f) {
      VerdictOfField(v, isEmail, fields, f);
    }
  }

  lemma EveryFieldListed(f: ClientField)
    ensures f in SchemaFields()
  {
  }

  /** `clientSchema`: a field has errors exactly when the schema rejects it,
      each with that field's message, so there is no error exactly for a
      valid form. */
  function ValidateClient(v: FormValues, isEmail: string -> bool): (errors: seq<FieldError<ClientField>>)
    ensures forall f: ClientField :: HasError(errors, f) <==> Fails(v, isEmail, f)
    ensures forall e :: e in errors ==> e.message == Message(e.field)
    ensures errors == [] <==> Valid(v, isEmail)
  {
    forall f: ClientField ensures f in SchemaFields() {
      EveryFieldListed(f);
    }
    VerdictOfAllFields(v, isEmail, SchemaFields());
    ValidIffNoFieldFails(v, isEmail);
    var errors := CollectErrors(v, isEmail, SchemaFields());
    assert errors != [] ==> HasError(errors, errors[0].field);
    errors
  }

  /** The fields the schema marks `.optional()` never have an error. */
  lemma OptionalFieldsNeverFail(v: FormValues, isEmail: string -> bool, f: ClientField)
    requires f.IsOptional()
    ensures !HasError(ValidateClient(v, isEmail), f)
  {
  }

  // ---------------------------------------------------------------------
  // Between form values and client fields

  /** The form showing a client's fields. */
  function FromClient(d: ClientData): FormValues {
    FormValues(d.name, d.surname, Some(d.birthDate), d.dni, d.phone, d.email, d.address, d.city,
               d.postalCode, d.profession, d.pathologies, d.surgicalInterventions, d.medication,
               d.familyHistory, d.reasonForConsultation)
  }

  /** The client fields a submitted form saves; only a form with a birth date
      is ever submitted. */
  function ToClientData(v: FormValues): (d: ClientData)
    requires v.birthDate.Some?
    ensures FromClient(d) == v
  {
    ClientData(v.name, v.surname, v.phone, v.dni, v.birthDate.value, v.address, v.city, v.postalCode,
               v.email, v.profession, v.pathologies, v.surgicalInterventions, v.medication,
               v.familyHistory, v.reasonForConsultation)
  }

  lemma FormRoundTrip(d: ClientData)
    ensures ToClientData(FromClient(d)) == d
  {
  }

  /** The sparse update an edit sends: every field is supplied. */
  function FullPatch(d: ClientData): (p: ClientPatch)
    ensures forall d0 :: ClientService.ApplyPatch(d0, p) == d
    ensures p != ClientService.NoChanges
  {
    ClientPatch(Some(d.name), Some(d.surname), Some(d.phone), Some(d.dni), Some(d.birthDate),
                Some(d.address), Some(d.city), Some(d.postalCode), Some(d.email), Some(d.profession),
                Some(d.pathologies), Some(d.surgicalInterventions), Some(d.medication),
                Some(d.familyHistory), Some(d.reasonForConsultation))
  }

  // ---------------------------------------------------------------------
  // Initial values

  /** Name and surname a caller may pre-fill. */
  datatype InitialData = InitialData(name: Option<string>, surname: Option<string>)

  /** `initialData?.name`. */
  function InitialName(initial: Option<InitialData>): Option<string> {
    if initial.Some? then initial.value.name else None
  }

  function InitialSurname(initial: Option<InitialData>): Option<string> {
    if initial.Some? then initial.value.surname else None
  }

  /** The blank form of create mode. */
  const Blank := FormValues("", "", None, "", "", "", "", "", "", "", "", "", "", "", "")

  /** `defaultValues`: each field from the client being edited; failing
      that, name and surname from the pre-fill; failing that, empty. */
  function DefaultValues(client: Option<Client>, initial: Option<InitialData>): (v: FormValues)
    ensures client.Some? ==> v == FromClient(client.value.data)
    ensures client.None? ==>
      v == Blank.(name := InitialName(initial).GetOr(""), surname := InitialSurname(initial).GetOr(""))
  {
    match client
    case Some(c) => FromClient(c.data)
    case None => Blank.(name := InitialName(initial).GetOr(""), surname := InitialSurname(initial).GetOr(""))
  }

  /** The effect that copies a non-empty pre-filled name or surname into the
      form when the pre-fill arrives. Nothing else changes. */
  function ApplyInitialData(v: FormValues, initial: Option<InitialData>): (r: FormValues)
    ensures r.(name := v.name, surname := v.surname) == v
    ensures r.name == if Truthy(InitialName(initial)) then InitialName(initial).value else v.name
    ensures r.surname == if Truthy(InitialSurname(initial)) then InitialSurname(initial).value else v.surname
  {
    var withName := if Truthy(InitialName(initial)) then v.(name := InitialName(initial).value) else v;
    if Truthy(InitialSurname(initial)) then withName.(surname := InitialSurname(initial).value) else withName
  }

  /** In create mode the effect agrees with the default values: a pre-fill
      that arrives after the form was built with none gives the form built
      with it, and one already in the defaults changes nothing. */
  lemma PrefillAgreesWithDefaults(initial: Option<InitialData>)
    ensures ApplyInitialData(DefaultValues(None, None), initial) == DefaultValues(None, initial)
    ensures ApplyInitialData(DefaultValues(None, initial), initial) == DefaultValues(None, initial)
  {
  }

  /** Without a pre-fill, editing starts from exactly the client's fields. */
  lemma EditStartsFromClient(c: Client)
    ensures ToClientData(ApplyInitialData(DefaultValues(Some(c), None), None)) == c.data
  {
  }

  // ---------------------------------------------------------------------
  // Submit

  datatype Mode = Creating | Editing(client: Client)

  datatype Outcome =
    | Rejected(errors: seq<FieldError<ClientField>>)   // the schema stopped the submit
    | Updated(client: Client)             // edit saved; the page shows the re-read client
    | NotUpdated                          // edit returned nothing; nothing is shown
    | SaveFailed                          // the error notice
    | Opened(path: string)                // create saved; the new client's page opens

  /** `onSubmit` behind the schema. Edit mode only updates, with every field.
      Create mode only creates; a failed creation is reported and skips the
      success callback; a successful one runs the callback on the store and
      then opens the new client's page. */
  function Submit(s: Store, mode: Mode, v: FormValues, isEmail: string -> bool,
                  onSaveSuccess: Option<Store -> Store>, freshId: Id,
                  writeFails: bool, clientFails: bool, visitsFail: bool): (r: Reply<Outcome>)
    ensures r.value.Rejected? <==> !Valid(v, isEmail)
    ensures r.value.Rejected? ==> r.store == s && r.value.errors == ValidateClient(v, isEmail)
    ensures mode.Editing? ==> r.value.Rejected? || r.value.Updated? || r.value.NotUpdated?
    ensures mode.Editing? ==>
      r.store.visits == s.visits && r.store.pending == s.pending && |r.store.clients| == |s.clients|
    ensures mode.Editing? && r.value.Updated? ==> r.value.client.id == mode.client.id
    ensures mode.Editing? && Valid(v, isEmail) ==>
      var u := Data.UpdateClient(s, mode.client.id, FullPatch(ToClientData(v)), writeFails, clientFails, visitsFail);
      && r.store == u.store
      && (r.value.Updated? <==> u.value.Some?)
      && (u.value.Some? ==> r.value.client == u.value.value)
    ensures mode.Creating? ==> r.value.Rejected? || r.value.SaveFailed? || r.value.Opened?
    ensures mode.Creating? ==>
      (r.value.Opened? <==> Valid(v, isEmail) && !writeFails && !HasKey(s.clients, ClientKey, freshId))
    ensures mode.Creating? && r.value.SaveFailed? ==> r.store == s
    ensures r.value.Opened? ==> r.value.path == "/clients/" + freshId
    ensures mode.Creating? && r.value.Opened? && Valid(v, isEmail) ==>
      var created := s.(clients := s.clients + [ClientRow(freshId, ClientService.ClientToRow(ToClientData(v)))]);
      r.store == if onSaveSuccess.Some? then onSaveSuccess.value(created) else created
  {
    var errors := ValidateClient(v, isEmail);
    if errors != [] then Reply(s, Rejected(errors))
    else
      var d := ToClientData(v);
      match mode
      case Editing(c) =>
        var updated := Data.UpdateClient(s, c.id, FullPatch(d), writeFails, clientFails, visitsFail);
        Reply(updated.store, if updated.value.Some? then Updated(updated.value.value) else NotUpdated)
      case Creating =>
        var created := Data.CreateClient(s, d, freshId, writeFails);
        match created.value
        case Thrown(_) => Reply(created.store, SaveFailed)
        case Ok(newClient) =>
          var s' := if onSaveSuccess.Some? then onSaveSuccess.value(created.store) else created.store;
          Reply(s', Opened("/clients/" + newClient.id))
  }

  /** Editing a stored client with a valid form and no store error saves the
      form's fields and keeps the client's history. */
  lemma EditSavesFormValues(s: Store, i: nat, v: FormValues, isEmail: string -> bool, freshId: Id, visitsFail: bool)
    requires Wellformed(s) && i < |s.clients| && Valid(v, isEmail)
    ensures var before := ClientService.GetClient(s, s.clients[i].id, false, visitsFail);
      && before.Some?
      && Submit(s, Editing(before.value), v, isEmail, None, freshId, false, false, visitsFail).value
         == Updated(before.value.(data := ToClientData(v)))
  {
    var id := s.clients[i].id;
    ClientService.UpdateThenRead(s, i, FullPatch(ToClientData(v)), visitsFail);
  }
}

=== FILE: client_service.dfy ===
/** The client gateway: the only code that maps client and visit entities to
    and from table rows and that issues queries against `clients_records`
    and `visits`. Every round trip to the store takes a flag saying whether
    the store answered with an error; inserts take the id the store assigns. */
module ClientService {
  import opened Domain
  import opened Tables
  import Seqs
  import Text

  // ---------------------------------------------------------------------
  // Mapping between entities and rows

  /** The entity fields read from a row's columns (`rowToClient`). */
  function RowToData(c: ClientColumns): ClientData {
    ClientData(
      name := c.name,
      surname := c.surname,
      phone := c.phone,
      dni := c.dni,
      birthDate := c.birth_date,
      address := c.address,
      city := c.city,
      postalCode := c.postal_code,
      email := c.email,
      profession := c.profession,
      pathologies := c.pathologies,
      surgicalInterventions := c.surgical_interventions,
      medication := c.medication,
      familyHistory := c.family_history,
      reasonForConsultation := c.reason_for_consultation)
  }

  /** `rowToClient`: the visit history is loaded separately, so it starts empty. */
  function RowToClient(row: ClientRow): Client {
    Client(row.id, RowToData(row.cols), [])
  }

  /** `clientToRow`: the insert columns for a client's fields. Reading the
      columns back gives the same fields. */
  function ClientToRow(d: ClientData): (c: ClientColumns)
    ensures RowToData(c) == d
  {
    ClientColumns(
      name := d.name,
      surname := d.surname,
      phone := d.phone,
      dni := d.dni,
      birth_date := d.birthDate,
      address := d.address,
      city := d.city,
      postal_code := d.postalCode,
      email := d.email,
      profession := d.profession,
      pathologies := d.pathologies,
      surgical_interventions := d.surgicalInterventions,
      medication := d.medication,
      family_history := d.familyHistory,
      reason_for_consultation := d.reasonForConsultation)
  }

  /** The other direction: writing back what was read reproduces the row. */
  lemma ColumnsRoundTrip(c: ClientColumns)
    ensures ClientToRow(RowToData(c)) == c
  {
  }

  /** A row inserted from a client's fields reads back as that client, with
      the store's id and an empty history. */
  lemma InsertedRowReadsBack(d: ClientData, id: Id)
    ensures RowToClient(ClientRow(id, ClientToRow(d))) == Client(id, d, [])
  {
  }

  /** The visit read from a `visits` row; `Number(v.price)` leaves a number as it is. */
  function RowToVisit(v: VisitRow): Visit {
    Visit(v.id, v.date, v.treatment_notes, v.price)
  }

  // ---------------------------------------------------------------------
  // Search

  /** The `.or(...)` filter: `q` occurs, ignoring case, in the name, the
      surname, the phone or the DNI. */
  predicate MatchesQuery(d: ClientData, q: string) {
    || Text.ContainsIgnoringCase(d.name, q)
    || Text.ContainsIgnoringCase(d.surname, q)
    || Text.ContainsIgnoringCase(d.phone, q)
    || Text.ContainsIgnoringCase(d.dni, q)
  }

  function RowMatches(q: string): ClientRow -> bool {
    (r: ClientRow) => MatchesQuery(RowToData(r.cols), q)
  }

  /** `.order('name')`. */
  predicate NameOrder(a: ClientRow, b: ClientRow) {
    Text.StrLe(a.cols.name, b.cols.name)
  }

  lemma NameOrderIsTotalPreorder()
    ensures Seqs.TotalPreorder(NameOrder)
  {
    forall a: ClientRow, b: ClientRow ensures NameOrder(a, b) || NameOrder(b, a) {
      Text.StrLeTotal(a.cols.name, b.cols.name);
    }
    forall a: ClientRow, b: ClientRow, c: ClientRow | NameOrder(a, b) && NameOrder(b, c)
      ensures NameOrder(a, c)
    {
      Text.StrLeTransitive(a.cols.name, b.cols.name, c.cols.name);
    }
  }

  /** The clients a search for `q` should find, in storage order. */
  function Matching(clients: seq<ClientRow>, q: string): seq<Client> {
    Seqs.Map(Seqs.Filter(clients, RowMatches(q)), RowToClient)
  }

  /** `searchClients`: an empty query returns nothing without asking the
      store, a store error returns nothing, and otherwise the result is
      exactly the matching clients, ordered by name, without histories. */
  function SearchClients(s: Store, q: string, fails: bool): (r: seq<Client>)
    ensures q == [] ==> r == []
    ensures fails ==> r == []
    ensures q != [] && !fails ==> multiset(r) == multiset(Matching(s.clients, q))
    ensures forall i :: 0 <= i < |r| ==> MatchesQuery(r[i].data, q) && r[i].history == []
    ensures forall i, j :: 0 <= i < j < |r| ==> Text.StrLe(r[i].data.name, r[j].data.name)
  {
    if q == [] then []
    else if fails then []
    else
      NameOrderIsTotalPreorder();
      var found := Seqs.Filter(s.clients, RowMatches(q));
      var sorted := Seqs.SortBy(found, NameOrder);
      Seqs.MapPermutation(sorted, found, RowToClient);
      assert forall i :: 0 <= i < |sorted| ==> sorted[i] in multiset(found);
      Seqs.Map(sorted, RowToClient)
  }

  // ---------------------------------------------------------------------
  // Read with history

  /** `.order('date', { ascending: false })`. */
  predicate LaterOrSame(a: VisitRow, b: VisitRow) {
    a.date >= b.date
  }

  predicate DateDescending(h: seq<Visit>) {
    forall i, j :: 0 <= i < j < |h| ==> h[i].date >= h[j].date
  }

  /** The visits recorded for a client, in storage order. */
  function ClientVisits(visits: seq<VisitRow>, id: Id): seq<Visit> {
    Seqs.Map(Seqs.Filter(visits, VisitOfClient(id)), RowToVisit)
  }

  /** The visit query of `getClient`: exactly the client's visits, latest first. */
  function History(visits: seq<VisitRow>, id: Id): (h: seq<Visit>)
    ensures multiset(h) == multiset(ClientVisits(visits, id))
    ensures DateDescending(h)
  {
    var mine := Seqs.Filter(visits, VisitOfClient(id));
    var sorted := Seqs.SortBy(mine, LaterOrSame);
    Seqs.MapPermutation(sorted, mine, RowToVisit);
    Seqs.Map(sorted, RowToVisit)
  }

  /** `getClient`: nothing when the client query fails or does not match
      exactly one row; otherwise that row's client, whose history is empty
      when the visit query fails. */
  function GetClient(s: Store, id: Id, clientFails: bool, visitsFail: bool): (r: Option<Client>)
    ensures r.None? <==> clientFails || |Seqs.Filter(s.clients, ClientHasId(id))| != 1
    ensures r.Some? ==> r.value.id == id
    ensures r.Some? ==> Seqs.Filter(s.clients, ClientHasId(id)) == [ClientRow(id, ClientToRow(r.value.data))]
    ensures r.Some? && visitsFail ==> r.value.history == []
    ensures r.Some? && !visitsFail ==> multiset(r.value.history) == multiset(ClientVisits(s.visits, id))
    ensures r.Some? ==> DateDescending(r.value.history)
  {
    if clientFails then None
    else
      match Single(Seqs.Filter(s.clients, ClientHasId(id)))
      case None => None
      case Some(row) =>
        ColumnsRoundTrip(row.cols);
        var client := RowToClient(row);
        Some(client.(history := if visitsFail then [] else History(s.visits, id)))
  }

  /** A stored client is found, with its fields, whenever the client query succeeds. */
  lemma GetClientFinds(s: Store, i: nat, visitsFail: bool)
    requires UniqueKey(s.clients, ClientKey) && i < |s.clients|
    ensures GetClient(s, s.clients[i].id, false, visitsFail).Some?
    ensures GetClient(s, s.clients[i].id, false, visitsFail).value.data == RowToData(s.clients[i].cols)
  {
    ClientLookup(s.clients, i);
  }

  /** An id no row carries is not found. */
  lemma GetClientMissing(s: Store, id: Id, clientFails: bool, visitsFail: bool)
    requires !HasKey(s.clients, ClientKey, id)
    ensures GetClient(s, id, clientFails, visitsFail) == None
  {
    ClientLookupMissing(s.clients, id);
  }

  // ---------------------------------------------------------------------
  // Create

  /** `createClient`: inserts the client's row under the id the store
      assigns, and returns the inserted row read back. The insert fails on a
      store error, and on an id already in use (the primary key). */
  function CreateClient(s: Store, d: ClientData, freshId: Id, fails: bool): (r: Reply<Option<Client>>)
    ensures r.value.None? <==> fails || HasKey(s.clients, ClientKey, freshId)
    ensures r.value.None? ==> r.store == s
    ensures r.value.Some? ==> r.value.value == Client(freshId, d, [])
    ensures r.value.Some? ==> r.store == s.(clients := s.clients + [ClientRow(freshId, ClientToRow(d))])
  {
    if fails || HasKey(s.clients, ClientKey, freshId) then Reply(s, None)
    else
      var row := ClientRow(freshId, ClientToRow(d));
      Reply(s.(clients := s.clients + [row]), Some(RowToClient(row)))
  }

  lemma CreateClientKeepsWellformed(s: Store, d: ClientData, freshId: Id, fails: bool)
    requires Wellformed(s)
    ensures Wellformed(CreateClient(s, d, freshId, fails).store)
  {
    var s' := CreateClient(s, d, freshId, fails).store;
    if s' != s {
      forall k | 0 <= k < |s'.visits| ensures HasKey(s'.clients, ClientKey, s'.visits[k].client_id) {
        var j :| 0 <= j < |s.clients| && s.clients[j].id == s.visits[k].client_id;
        assert s'.clients[j] == s.clients[j];
      }
    }
  }

  /** Create then read: the new client reads back with every field as given
      and an empty history. */
  lemma CreateThenGet(s: Store, d: ClientData, freshId: Id)
    requires Wellformed(s)
    requires CreateClient(s, d, freshId, false).value.Some?
    ensures GetClient(CreateClient(s, d, freshId, false).store, freshId, false, false) == Some(Client(freshId, d, []))
  {
    var s' := CreateClient(s, d, freshId, false).store;
    var row := ClientRow(freshId, ClientToRow(d));
    ClientLookupMissing(s.clients, freshId);
    Seqs.FilterAppend(s.clients, [row], ClientHasId(freshId));
    assert Seqs.Filter([row], ClientHasId(freshId)) == [row] by {
      assert [row][1..] == [];
    }
    assert Seqs.Filter(s'.visits, VisitOfClient(freshId)) == [] by {
      forall k | 0 <= k < |s.visits| ensures !VisitOfClient(freshId)(s.visits[k]) {
        assert HasKey(s.clients, ClientKey, s.visits[k].client_id);
      }
      Seqs.FilterNone(s.visits, VisitOfClient(freshId));
    }
    var h := GetClient(s', freshId, false, false).value.history;
    assert |multiset(h)| == 0;
  }

  // ---------------------------------------------------------------------
  // Sparse update

  /** The reference meaning of a partial update: supplied fields replace
      the current ones, the others stay. */
  function ApplyPatch(d: ClientData, p: ClientPatch): ClientData {
    ClientData(
      name := p.name.GetOr(d.name),
      surname := p.surname.GetOr(d.surname),
      phone := p.phone.GetOr(d.phone),
      dni := p.dni.GetOr(d.dni),
      birthDate := p.birthDate.GetOr(d.birthDate),
      address := p.address.GetOr(d.address),
      city := p.city.GetOr(d.city),
      postalCode := p.postalCode.GetOr(d.postalCode),
      email := p.email.GetOr(d.email),
      profession := p.profession.GetOr(d.profession),
      pathologies := p.pathologies.GetOr(d.pathologies),
      surgicalInterventions := p.surgicalInterventions.GetOr(d.surgicalInterventions),
      medication := p.medication.GetOr(d.medication),
      familyHistory := p.familyHistory.GetOr(d.familyHistory),
      reasonForConsultation := p.reasonForConsultation.GetOr(d.reasonForConsultation))
  }

  /** The store's `UPDATE ... SET`: only the supplied columns change. */
  function ApplyUpdates(c: ClientColumns, u: ColumnUpdates): ClientColumns {
    ClientColumns(
      name := u.name.GetOr(c.name),
      surname := u.surname.GetOr(c.surname),
      phone := u.phone.GetOr(c.phone),
      dni := u.dni.GetOr(c.dni),
      birth_date := u.birth_date.GetOr(c.birth_date),
      address := u.address.GetOr(c.address),
      city := u.city.GetOr(c.city),
      postal_code := u.postal_code.GetOr(c.postal_code),
      email := u.email.GetOr(c.email),
      profession := u.profession.GetOr(c.profession),
      pathologies := u.pathologies.GetOr(c.pathologies),
      surgical_interventions := u.surgical_interventions.GetOr(c.surgical_interventions),
      medication := u.medication.GetOr(c.medication),
      family_history := u.family_history.GetOr(c.family_history),
      reason_for_consultation := u.reason_for_consultation.GetOr(c.reason_for_consultation))
  }

  /** The `updates` object of `updateClient`: one column per field that is
      not `undefined`, under its column name. Applied to any row, it changes
      that row's client exactly as the partial update says. */
  function PatchToUpdates(p: ClientPatch): (u: ColumnUpdates)
    ensures forall c :: RowToData(ApplyUpdates(c, u)) == ApplyPatch(RowToData(c), p)
  {
    ColumnUpdates(
      name := p.name,
      surname := p.surname,
      phone := p.phone,
      dni := p.dni,
      birth_date := p.birthDate,
      address := p.address,
      city := p.city,
      postal_code := p.postalCode,
      email := p.email,
      profession := p.profession,
      pathologies := p.pathologies,
      surgical_interventions := p.surgicalInterventions,
      medication := p.medication,
      family_history := p.familyHistory,
      reason_for_consultation := p.reasonForConsultation)
  }

  /** The partial update with every field left `undefined`. */
  const NoChanges := ClientPatch(None, None, None, None, None, None, None, None,
                                 None, None, None, None, None, None, None)

  lemma NoChangesKeepsClient(d: ClientData)
    ensures ApplyPatch(d, NoChanges) == d
  {
  }

  /** Updating only the city changes only the city. */
  lemma CityOnlyPatch(d: ClientData, city: string)
    ensures ApplyPatch(d, NoChanges.(city := Some(city))) == d.(city := city)
  {
  }

  lemma PatchIdempotent(d: ClientData, p: ClientPatch)
    ensures ApplyPatch(ApplyPatch(d, p), p) == ApplyPatch(d, p)
  {
  }

  /** The row update `.update(updates).eq('id', id)`. */
  function UpdateRow(id: Id, u: ColumnUpdates): ClientRow -> ClientRow {
    (r: ClientRow) => if r.id == id then r.(cols := ApplyUpdates(r.cols, u)) else r
  }

  /** The `updates` object of a patch that supplies no field: `{}`. */
  const NoColumns := ColumnUpdates(None, None, None, None, None, None, None, None,
                                   None, None, None, None, None, None, None)

  /** `updateClient`: sends only the supplied fields. It returns nothing,
      with the store in its old state, when the update fails, when the patch
      supplies no field (an empty `UPDATE` returns no row, so `.single()`
      fails), or when the id does not match exactly one row (`.single()`).
      Otherwise it returns the client read again. */
  function UpdateClient(s: Store, id: Id, p: ClientPatch, updateFails: bool, clientFails: bool, visitsFail: bool)
    : (r: Reply<Option<Client>>)
    ensures updateFails ==> r == Reply(s, None)
    ensures p == NoChanges ==> r == Reply(s, None)
    ensures |Seqs.Filter(s.clients, ClientHasId(id))| != 1 ==> r == Reply(s, None)
    ensures r.store.visits == s.visits && r.store.pending == s.pending
    ensures |r.store.clients| == |s.clients|
    ensures forall i :: 0 <= i < |s.clients| ==> r.store.clients[i].id == s.clients[i].id
    ensures forall i :: 0 <= i < |s.clients| && s.clients[i].id != id ==> r.store.clients[i] == s.clients[i]
    ensures !updateFails && p != NoChanges && |Seqs.Filter(s.clients, ClientHasId(id))| == 1 ==>
      && (forall i :: 0 <= i < |s.clients| && s.clients[i].id == id ==>
            RowToData(r.store.clients[i].cols) == ApplyPatch(RowToData(s.clients[i].cols), p))
      && r.value == GetClient(r.store, id, clientFails, visitsFail)
  {
    var u := PatchToUpdates(p);
    if updateFails || u == NoColumns || |Seqs.Filter(s.clients, ClientHasId(id))| != 1 then Reply(s, None)
    else
      var s' := s.(clients := Seqs.Map(s.clients, UpdateRow(id, u)));
      Reply(s', GetClient(s', id, clientFails, visitsFail))
  }

  /** Update then read: the client comes back with the patch applied to its
      fields and with the history it had before, provided the patch supplies
      at least one field. */
  lemma UpdateThenRead(s: Store, i: nat, p: ClientPatch, visitsFail: bool)
    requires Wellformed(s) && i < |s.clients| && p != NoChanges
    ensures var id := s.clients[i].id;
      && GetClient(s, id, false, visitsFail).Some?
      && UpdateClient(s, id, p, false, false, visitsFail).value
         == Some(GetClient(s, id, false, visitsFail).value.(data := ApplyPatch(RowToData(s.clients[i].cols), p)))
  {
    var id := s.clients[i].id;
    ClientLookup(s.clients, i);
    var s' := UpdateClient(s, id, p, false, false, visitsFail).store;
    assert UniqueKey(s'.clients, ClientKey);
    ClientLookup(s'.clients, i);
    ColumnsRoundTrip(s'.clients[i].cols);
  }

  lemma UpdateClientKeepsWellformed(s: Store, id: Id, p: ClientPatch, updateFails: bool, clientFails: bool, visitsFail: bool)
    requires Wellformed(s)
    ensures Wellformed(UpdateClient(s, id, p, updateFails, clientFails, visitsFail).store)
  {
    var s' := UpdateClient(s, id, p, updateFails, clientFails, visitsFail).store;
    forall k | 0 <= k < |s'.visits| ensures HasKey(s'.clients, ClientKey, s'.visits[k].client_id) {
      var j :| 0 <= j < |s.clients| && s.clients[j].id == s.visits[k].client_id;
      assert s'.clients[j].id == s.clients[j].id;
    }
  }

  // ---------------------------------------------------------------------
  // Add a visit

  /** `addVisit`: inserts the visit row for the client and returns the
      client read again. The insert fails on a store error, on an id already
      in use, and on a client id that no client carries (the foreign key). */
  function AddVisit(s: Store, clientId: Id, v: VisitData, freshId: Id,
                    insertFails: bool, clientFails: bool, visitsFail: bool): (r: Reply<Option<Client>>)
    ensures insertFails || !HasKey(s.clients, ClientKey, clientId) || HasKey(s.visits, VisitKey, freshId) ==>
      r == Reply(s, None)
    ensures !(insertFails || !HasKey(s.clients, ClientKey, clientId) || HasKey(s.visits, VisitKey, freshId)) ==>
      && r.store.clients == s.clients && r.store.pending == s.pending
      && |r.store.visits| == |s.visits| + 1 && r.store.visits[..|s.visits|] == s.visits
      && r.store.visits[|s.visits|].client_id == clientId
      && RowToVisit(r.store.visits[|s.visits|]) == Visit(freshId, v.date, v.treatmentNotes, v.price)
      && r.value == GetClient(r.store, clientId, clientFails, visitsFail)
  {
    if insertFails || !HasKey(s.clients, ClientKey, clientId) || HasKey(s.visits, VisitKey, freshId) then Reply(s, None)
    else
      var row := VisitRow(freshId, clientId, v.date, v.treatmentNotes, v.price);
      var s' := s.(visits := s.visits + [row]);
      assert s'.visits[..|s.visits|] == s.visits;
      Reply(s', GetClient(s', clientId, clientFails, visitsFail))
  }

  lemma AddVisitKeepsWellformed(s: Store, clientId: Id, v: VisitData, freshId: Id,
                                insertFails: bool, clientFails: bool, visitsFail: bool)
    requires Wellformed(s)
    ensures Wellformed(AddVisit(s, clientId, v, freshId, insertFails, clientFails, visitsFail).store)
  {
  }

  /** After a successful insert and re-read, the history is the old history
      plus the new visit (still latest first), and the fields are untouched. */
  lemma AddVisitExtendsHistory(s: Store, clientId: Id, v: VisitData, freshId: Id)
    requires Wellformed(s)
    requires HasKey(s.clients, ClientKey, clientId) && !HasKey(s.visits, VisitKey, freshId)
    ensures var before := GetClient(s, clientId, false, false);
      var after := AddVisit(s, clientId, v, freshId, false, false, false).value;
      && before.Some? && after.Some?
      && after.value.data == before.value.data
      && multiset(after.value.history)
         == multiset(before.value.history) + multiset{Visit(freshId, v.date, v.treatmentNotes, v.price)}
      && DateDescending(after.value.history)
  {
    var i :| 0 <= i < |s.clients| && s.clients[i].id == clientId;
    GetClientFinds(s, i, false);
    var row := VisitRow(freshId, clientId, v.date, v.treatmentNotes, v.price);
    var s' := AddVisit(s, clientId, v, freshId, false, false, false).store;
    assert s'.clients == s.clients && s'.visits == s.visits + [row];
    GetClientFinds(s', i, false);
    ClientVisitsAppend(s.visits, row);
    var before := GetClient(s, clientId, false, false).value;
    var after := GetClient(s', clientId, false, false).value;
    assert multiset(after.history) == multiset(ClientVisits(s.visits, clientId) + [RowToVisit(row)]);
  }

  /** A visit row appended for a client extends that client's visits by it. */
  lemma ClientVisitsAppend(visits: seq<VisitRow>, row: VisitRow)
    ensures ClientVisits(visits + [row], row.client_id) == ClientVisits(visits, row.client_id) + [RowToVisit(row)]
  {
    var p := VisitOfClient(row.client_id);
    Seqs.FilterSnoc(visits, row, p);
    Seqs.MapAppend(Seqs.Filter(visits, p), [row], RowToVisit);
  }

  /** `undefined` from `addVisit` does not mean the visit was not stored:
      when the re-read fails, the new row is in the store all the same. */
  lemma AddVisitStoredButUnreported(s: Store, clientId: Id, v: VisitData, freshId: Id, visitsFail: bool)
    requires HasKey(s.clients, ClientKey, clientId) && !HasKey(s.visits, VisitKey, freshId)
    ensures AddVisit(s, clientId, v, freshId, false, true, visitsFail).value == None
    ensures |AddVisit(s, clientId, v, freshId, false, true, visitsFail).store.visits| == |s.visits| + 1
  {
  }
}

=== FILE: data.dfy ===
/** The server-side entry points the pages call. Searching, reading,
    updating and adding a visit hand the gateway's result through unchanged;
    only creation changes the contract, turning a missing result into a
    thrown error. */
module Data {
  import opened Domain
  import opened Tables
  import ClientService

  /** A call that either returns a value or throws an `Error` with a message. */
  datatype Result<T> = Ok(value: T) | Thrown(message: string)

  const CreateFailed := "Failed to create client"

  function SearchClients(s: Store, q: string, fails: bool): seq<Client> {
    ClientService.SearchClients(s, q, fails)
  }

  function GetClient(s: Store, id: Id, clientFails: bool, visitsFail: bool): Option<Client> {
    ClientService.GetClient(s, id, clientFails, visitsFail)
  }

  /** `createClient`: the gateway's client when there is one; otherwise the
      error "Failed to create client" is thrown. The store is left as the
      gateway left it. */
  function CreateClient(s: Store, d: ClientData, freshId: Id, fails: bool): (r: Reply<Result<Client>>)
    ensures r.store == ClientService.CreateClient(s, d, freshId, fails).store
    ensures r.value.Thrown? <==> ClientService.CreateClient(s, d, freshId, fails).value.None?
    ensures r.value.Thrown? ==> r.value.message == CreateFailed
    ensures r.value.Ok? ==> ClientService.CreateClient(s, d, freshId, fails).value == Some(r.value.value)
    ensures r.value.Ok? ==> r.value.value == Client(freshId, d, [])
    ensures r.value.Thrown? <==> fails || HasKey(s.clients, ClientKey, freshId)
  {
    var created := ClientService.CreateClient(s, d, freshId, fails);
    match created.value
    case None => Reply(created.store, Thrown(CreateFailed))
    case Some(c) => Reply(created.store, Ok(c))
  }

  function UpdateClient(s: Store, id: Id, p: ClientPatch, updateFails: bool, clientFails: bool, visitsFail: bool)
    : Reply<Option<Client>>
  {
    ClientService.UpdateClient(s, id, p, updateFails, clientFails, visitsFail)
  }

  function AddVisit(s: Store, clientId: Id, v: VisitData, freshId: Id,
                    insertFails: bool, clientFails: bool, visitsFail: bool): Reply<Option<Client>>
  {
    ClientService.AddVisit(s, clientId, v, freshId, insertFails, clientFails, visitsFail)
  }
}

=== FILE: domain.dfy ===
/** The entities the application shows and edits (camelCase, as in the
    TypeScript types) and the rows of the three tables that hold them
    (snake_case, named after the table columns). */
module Domain {

  /** Identifiers are assigned by the store (UUID text). */
  type Id = string

  /** Instants are integer timestamps; their ISO text form is not modelled. */
  type Date = int

  /** `T | undefined` (and `T | null`) in the application's signatures. */
  datatype Option<+T> = None | Some(value: T) {
    function GetOr(default: T): T {
      match this
      case Some(v) => v
      case None => default
    }
  }

  /** JavaScript truthiness of an optional text value: present and not empty. */
  predicate Truthy(f: Option<string>) {
    f.Some? && f.value != ""
  }

  /** One treatment session. */
  datatype Visit = Visit(id: Id, date: Date, treatmentNotes: string, price: real)

  /** The fields of a visit the user enters (`Omit<Visit, 'id'>`). */
  datatype VisitData = VisitData(date: Date, treatmentNotes: string, price: real)

  /** The fields of a client other than `id` and `history`
      (`Omit<Client, 'id' | 'history'>`). */
  datatype ClientData = ClientData(
    name: string,
    surname: string,
    phone: string,
    dni: string,
    birthDate: Date,
    address: string,
    city: string,
    postalCode: string,
    email: string,
    profession: string,
    pathologies: string,
    surgicalInterventions: string,
    medication: string,
    familyHistory: string,
    reasonForConsultation: string)

  /** A client file with its visit history, which is loaded separately. */
  datatype Client = Client(id: Id, data: ClientData, history: seq<Visit>)

  /** A sparse set of client fields (`Partial<Omit<Client, 'id' | 'history'>>`):
      `None` is a field left `undefined`. */
  datatype ClientPatch = ClientPatch(
    name: Option<string>,
    surname: Option<string>,
    phone: Option<string>,
    dni: Option<string>,
    birthDate: Option<Date>,
    address: Option<string>,
    city: Option<string>,
    postalCode: Option<string>,
    email: Option<string>,
    profession: Option<string>,
    pathologies: Option<string>,
    surgicalInterventions: Option<string>,
    medication: Option<string>,
    familyHistory: Option<string>,
    reasonForConsultation: Option<string>)

  /** A placeholder for a booked appointment that has no client file yet. */
  datatype PendingRecord = PendingRecord(
    id: Id,
    clientName: string,
    appointmentId: string,
    appointmentDate: Date,
    createdAt: Date,
    isCompleted: bool)

  /** The data columns of `clients_records` (its `Insert` shape without `id`). */
  datatype ClientColumns = ClientColumns(
    name: string,
    surname: string,
    phone: string,
    dni: string,
    birth_date: Date,
    address: string,
    city: string,
    postal_code: string,
    email: string,
    profession: string,
    pathologies: string,
    surgical_interventions: string,
    medication: string,
    family_history: string,
    reason_for_consultation: string)

  /** The `Update` shape of `clients_records`: only the `Some` columns are set. */
  datatype ColumnUpdates = ColumnUpdates(
    name: Option<string>,
    surname: Option<string>,
    phone: Option<string>,
    dni: Option<string>,
    birth_date: Option<Date>,
    address: Option<string>,
    city: Option<string>,
    postal_code: Option<string>,
    email: Option<string>,
    profession: Option<string>,
    pathologies: Option<string>,
    surgical_interventions: Option<string>,
    medication: Option<string>,
    family_history: Option<string>,
    reason_for_consultation: Option<string>)

  /** A row of `clients_records`. */
  datatype ClientRow = ClientRow(id: Id, cols: ClientColumns)

  /** A row of `visits`; `client_id` references `clients_records.id`. */
  datatype VisitRow = VisitRow(id: Id, client_id: Id, date: Date, treatment_notes: string, price: real)

  /** A row of `pending_records`. */
  datatype PendingRow = PendingRow(
    id: Id,
    client_name: string,
    appointment_id: string,
    appointment_date: Date,
    created_at: Date,
    is_completed: bool)
}

=== FILE: new_client_page.dfy ===
/** The new-client page: reads the pre-fill and the pending record from its
    URL, shows the client form in create mode, and once the client is created
    marks that pending record completed. The two writes are separate, with
    no transaction around them. */
module NewClientPage {
  import opened Domain
  import opened Tables
  import PendingRecords
  import PendingRecordsList
  import ClientForm
  import ClientService

  /** `searchParams.get(...)`: `None` for a parameter that is absent. */
  datatype SearchParams = SearchParams(name: Option<string>, surname: Option<string>, pendingId: Option<string>)

  /** `value || undefined`. */
  function OrUndefined(p: Option<string>): (r: Option<string>)
    ensures r.Some? <==> Truthy(p)
    ensures r.Some? ==> r == p
  {
    if Truthy(p) then p else None
  }

  /** The pre-fill: set only when the name or the surname is non-empty, and
      then without empty values. */
  function InitialDataFrom(p: SearchParams): (r: Option<ClientForm.InitialData>)
    ensures r.Some? <==> Truthy(p.name) || Truthy(p.surname)
    ensures r.Some? ==> r.value.name == OrUndefined(p.name) && r.value.surname == OrUndefined(p.surname)
    ensures r.Some? ==> r.value.name != Some("") && r.value.surname != Some("")
  {
    if Truthy(p.name) || Truthy(p.surname) then
      Some(ClientForm.InitialData(OrUndefined(p.name), OrUndefined(p.surname)))
    else None
  }

  /** The pending record to complete: only a non-empty `pendingId`. */
  function PendingIdFrom(p: SearchParams): (r: Option<Id>)
    ensures r.Some? <==> Truthy(p.pendingId)
    ensures r.Some? ==> r == p.pendingId
  {
    OrUndefined(p.pendingId)
  }

  /** The parameters the page reads from the URL the list opens. Every
      parameter is present, possibly empty; encoding and decoding the URL is
      taken to give the values back. */
  function QueryParams(q: PendingRecordsList.NewClientQuery): SearchParams {
    SearchParams(Some(q.name), Some(q.surname), Some(q.pendingId))
  }

  /** The values the form shows before the user types. The page first
      renders the form with no pre-fill, so the create-mode defaults are
      blank; the pre-fill read from the URL then arrives through the effect. */
  function StartValues(p: SearchParams): ClientForm.FormValues {
    ClientForm.ApplyInitialData(ClientForm.DefaultValues(None, None), InitialDataFrom(p))
  }

  /** Opening the page with a query pre-fills its name and surname and
      nothing else. */
  lemma PrefillFromQuery(q: PendingRecordsList.NewClientQuery)
    ensures StartValues(QueryParams(q)) == ClientForm.Blank.(name := q.name, surname := q.surname)
  {
    ClientForm.PrefillAgreesWithDefaults(InitialDataFrom(QueryParams(q)));
  }

  /** Opening a pending record pre-fills the split name and nothing else. */
  lemma PrefillFromPendingRecord(record: PendingRecord)
    ensures var parts := PendingRecordsList.SplitClientName(record.clientName);
      StartValues(QueryParams(PendingRecordsList.HandleCreateRecord(record)))
        == ClientForm.Blank.(name := parts.firstName, surname := parts.lastName)
  {
    PrefillFromQuery(PendingRecordsList.HandleCreateRecord(record));
  }

  /** `handleSave`: completes the pending record named in the URL, if any;
      its result is ignored. */
  function HandleSave(pendingId: Option<Id>, completeFails: bool): Store -> Store {
    (s: Store) =>
      if pendingId.Some? then PendingRecords.CompletePendingRecord(s, pendingId.value, completeFails).store
      else s
  }

  /** `handleSave` only touches the pending records, and there only the
      rows carrying that id, which it marks completed unless the store fails. */
  lemma HandleSaveCompletesThatRecord(s: Store, pendingId: Option<Id>, completeFails: bool)
    ensures var s' := HandleSave(pendingId, completeFails)(s);
      && s'.clients == s.clients && s'.visits == s.visits
      && |s'.pending| == |s.pending|
      && (pendingId.None? || completeFails ==> s'.pending == s.pending)
      && (forall i :: 0 <= i < |s.pending| && Some(s.pending[i].id) != pendingId ==> s'.pending[i] == s.pending[i])
      && (forall i :: 0 <= i < |s.pending| && Some(s.pending[i].id) == pendingId && !completeFails ==>
            s'.pending[i] == s.pending[i].(is_completed := true))
  {
  }

  /** Submitting the create form of this page: the client form's create
      branch with `handleSave` as its success callback. */
  function SaveNewClient(s: Store, p: SearchParams, v: ClientForm.FormValues, isEmail: string -> bool,
                         freshId: Id, createFails: bool, completeFails: bool): (r: Reply<ClientForm.Outcome>)
    ensures r.value.Opened? <==> ClientForm.Valid(v, isEmail) && !createFails && !HasKey(s.clients, ClientKey, freshId)
    ensures !r.value.Opened? ==> r.store == s
    ensures r.value.Opened? ==> r.value.path == "/clients/" + freshId
    ensures r.value.Opened? && ClientForm.Valid(v, isEmail) ==>
      && r.store.clients == s.clients + [ClientRow(freshId, ClientService.ClientToRow(ClientForm.ToClientData(v)))]
      && r.store.visits == s.visits
      && r.store.pending == HandleSave(PendingIdFrom(p), completeFails)(s).pending
  {
    var r := ClientForm.Submit(s, ClientForm.Creating, v, isEmail, Some(HandleSave(PendingIdFrom(p), completeFails)),
                               freshId, createFails, false, false);
    assert r.value.Opened? && ClientForm.Valid(v, isEmail) ==>
      r.store.pending == HandleSave(PendingIdFrom(p), completeFails)(s).pending by {
      if r.value.Opened? && ClientForm.Valid(v, isEmail) {
        var created := s.(clients := s.clients + [ClientRow(freshId, ClientService.ClientToRow(ClientForm.ToClientData(v)))]);
        HandleSaveCompletesThatRecord(created, PendingIdFrom(p), completeFails);
        HandleSaveCompletesThatRecord(s, PendingIdFrom(p), completeFails);
      }
    }
    r
  }

  /** A client's data read back does not depend on the pending records. */
  lemma GetClientIgnoresPending(s: Store, pending: seq<PendingRow>, id: Id)
    ensures ClientService.GetClient(s.(pending := pending), id, false, false) == ClientService.GetClient(s, id, false, false)
  {
  }

  /** A store holding one more client row and the record completed: the
      client reads back with its fields and no visits, and the record is not
      in the active list. */
  lemma CreatedAndCompleted(s: Store, t: Store, d: ClientData, freshId: Id, recordId: Id, listFails: bool)
    requires Wellformed(s) && !HasKey(s.clients, ClientKey, freshId)
    requires t.clients == s.clients + [ClientRow(freshId, ClientService.ClientToRow(d))]
    requires t.visits == s.visits
    requires t.pending == PendingRecords.CompletePendingRecord(s, recordId, false).store.pending
    ensures ClientService.GetClient(t, freshId, false, false) == Some(Client(freshId, d, []))
    ensures forall x :: x in PendingRecords.GetPendingRecords(t, listFails) ==> x.id != recordId
  {
    var created := ClientService.CreateClient(s, d, freshId, false).store;
    ClientService.CreateThenGet(s, d, freshId);
    GetClientIgnoresPending(created, t.pending, freshId);
    assert t == created.(pending := t.pending);
    var completed := PendingRecords.CompletePendingRecord(created, recordId, false).store;
    PendingRecords.CompletedLeavesActiveList(created, recordId, listFails);
    PendingRecords.ListReadsOnlyPending(t, completed, listFails);
  }

  /** Saving a valid form from a URL that names a pending record, with no
      store error: the page opens the new client, which reads back with the
      form's fields, and the record leaves the active list. */
  lemma SaveCompletesNamedRecord(s: Store, p: SearchParams, recordId: Id, v: ClientForm.FormValues,
                                 isEmail: string -> bool, freshId: Id, listFails: bool)
    requires Wellformed(s) && ClientForm.Valid(v, isEmail) && !HasKey(s.clients, ClientKey, freshId)
    requires PendingIdFrom(p) == Some(recordId)
    ensures var r := SaveNewClient(s, p, v, isEmail, freshId, false, false);
      && r.value == ClientForm.Opened("/clients/" + freshId)
      && ClientService.GetClient(r.store, freshId, false, false) == Some(Client(freshId, ClientForm.ToClientData(v), []))
      && forall x :: x in PendingRecords.GetPendingRecords(r.store, listFails) ==> x.id != recordId
  {
    var r := SaveNewClient(s, p, v, isEmail, freshId, false, false);
    CreatedAndCompleted(s, r.store, ClientForm.ToClientData(v), freshId, recordId, listFails);
  }

  /** The whole flow from a pending record: the list opens this page with the
      record's id, so saving a valid form with no store error creates the
      client and takes the record off the active list. */
  lemma CreateFromPendingRecord(s: Store, record: PendingRecord, v: ClientForm.FormValues, isEmail: string -> bool,
                                freshId: Id, listFails: bool)
    requires Wellformed(s) && ClientForm.Valid(v, isEmail) && !HasKey(s.clients, ClientKey, freshId)
    requires record.id != ""
    ensures var r := SaveNewClient(s, QueryParams(PendingRecordsList.HandleCreateRecord(record)), v, isEmail,
                                   freshId, false, false);
      && r.value == ClientForm.Opened("/clients/" + freshId)
      && ClientService.GetClient(r.store, freshId, false, false) == Some(Client(freshId, ClientForm.ToClientData(v), []))
      && forall x :: x in PendingRecords.GetPendingRecords(r.store, listFails) ==> x.id != record.id
  {
    var p := QueryParams(PendingRecordsList.HandleCreateRecord(record));
    assert PendingIdFrom(p) == Some(record.id);
    SaveCompletesNamedRecord(s, p, record.id, v, isEmail, freshId, listFails);
  }

  /** A failed completion is ignored: the client stays created, the page
      opens it, and the pending record stays active. */
  lemma CompletionFailureKeepsRecordActive(s: Store, record: PendingRecord, v: ClientForm.FormValues,
                                           isEmail: string -> bool, freshId: Id, listFails: bool)
    requires ClientForm.Valid(v, isEmail) && !HasKey(s.clients, ClientKey, freshId)
    ensures var r := SaveNewClient(s, QueryParams(PendingRecordsList.HandleCreateRecord(record)), v, isEmail,
                                   freshId, false, true);
      && r.value == ClientForm.Opened("/clients/" + freshId)
      && |r.store.clients| == |s.clients| + 1
      && PendingRecords.GetPendingRecords(r.store, listFails) == PendingRecords.GetPendingRecords(s, listFails)
  {
    var p := QueryParams(PendingRecordsList.HandleCreateRecord(record));
    var r := SaveNewClient(s, p, v, isEmail, freshId, false, true);
    HandleSaveCompletesThatRecord(s, PendingIdFrom(p), true);
    assert r.store.pending == s.pending;
    PendingRecords.ListReadsOnlyPending(r.store, s, listFails);
  }
}

=== FILE: pending_records.dfy ===
/** The pending-record queue: appointments booked for someone who has no
    client file yet. A record is active until it is completed; the flag never
    goes back, and a record may also be deleted outright. */
module PendingRecords {
  import opened Domain
  import opened Tables
  import Seqs

  /** The column default of `is_completed`, which the insert leaves out. The
      schema is not part of this model: `false` is an assumption. */
  const IsCompletedDefault := false

  function RowToRecord(r: PendingRow): PendingRecord {
    PendingRecord(r.id, r.client_name, r.appointment_id, r.appointment_date, r.created_at, r.is_completed)
  }

  /** `.eq('is_completed', false)`. */
  predicate IsActive(r: PendingRow) {
    !r.is_completed
  }

  /** `.order('appointment_date', { ascending: true })`. */
  predicate EarlierOrSame(a: PendingRow, b: PendingRow) {
    a.appointment_date <= b.appointment_date
  }

  /** The records the active list should show, in storage order. */
  function ActiveRecords(rows: seq<PendingRow>): seq<PendingRecord> {
    Seqs.Map(Seqs.Filter(rows, IsActive), RowToRecord)
  }

  /** `getPendingRecords`: exactly the records not yet completed, earliest
      appointment first; a store error gives an empty list. */
  function GetPendingRecords(s: Store, fails: bool): (r: seq<PendingRecord>)
    ensures fails ==> r == []
    ensures !fails ==> multiset(r) == multiset(ActiveRecords(s.pending))
    ensures forall i :: 0 <= i < |r| ==> !r[i].isCompleted
    ensures forall i, j :: 0 <= i < j < |r| ==> r[i].appointmentDate <= r[j].appointmentDate
  {
    if fails then []
    else
      var active := Seqs.Filter(s.pending, IsActive);
      var sorted := Seqs.SortBy(active, EarlierOrSame);
      Seqs.MapPermutation(sorted, active, RowToRecord);
      assert forall i :: 0 <= i < |sorted| ==> sorted[i] in multiset(active);
      Seqs.Map(sorted, RowToRecord)
  }

  /** `createPendingRecord`: inserts the three given fields under the id and
      creation time the store assigns, and returns the inserted record; the
      insert fails (null) on a store error, an id already in use, or an
      appointment that already has a record. */
  function CreatePendingRecord(s: Store, clientName: string, appointmentId: string, appointmentDate: Date,
                               freshId: Id, now: Date, fails: bool): (r: Reply<Option<PendingRecord>>)
    ensures r.value.None? <==> fails || HasKey(s.pending, PendingKey, freshId) || HasKey(s.pending, AppointmentKey, appointmentId)
    ensures r.value.None? ==> r.store == s
    ensures r.value.Some? ==>
      r.value.value == PendingRecord(freshId, clientName, appointmentId, appointmentDate, now, false)
    ensures r.value.Some? ==>
      && r.store.clients == s.clients && r.store.visits == s.visits
      && |r.store.pending| == |s.pending| + 1 && r.store.pending[..|s.pending|] == s.pending
      && RowToRecord(r.store.pending[|s.pending|]) == r.value.value
  {
    if fails || HasKey(s.pending, PendingKey, freshId) || HasKey(s.pending, AppointmentKey, appointmentId) then
      Reply(s, None)
    else
      var row := PendingRow(freshId, clientName, appointmentId, appointmentDate, now, IsCompletedDefault);
      var s' := s.(pending := s.pending + [row]);
      assert s'.pending[..|s.pending|] == s.pending;
      Reply(s', Some(RowToRecord(row)))
  }

  /** `.update({ is_completed: true }).eq('id', id)`. */
  function CompleteRow(id: Id): PendingRow -> PendingRow {
    (r: PendingRow) => if r.id == id then r.(is_completed := true) else r
  }

  /** `completePendingRecord`: sets the flag of the record with that id,
      whatever it was, and reports whether the store accepted the update. */
  function CompletePendingRecord(s: Store, id: Id, fails: bool): (r: Reply<bool>)
    ensures r.value == !fails
    ensures fails ==> r.store == s
    ensures r.store.clients == s.clients && r.store.visits == s.visits
    ensures |r.store.pending| == |s.pending|
    ensures forall i :: 0 <= i < |s.pending| && s.pending[i].id != id ==> r.store.pending[i] == s.pending[i]
    ensures !fails ==> forall i :: 0 <= i < |s.pending| && s.pending[i].id == id ==>
      r.store.pending[i] == s.pending[i].(is_completed := true)
  {
    if fails then Reply(s, false)
    else Reply(s.(pending := Seqs.Map(s.pending, CompleteRow(id))), true)
  }

  /** `.delete().eq('id', id)` keeps the rows with another id. */
  function OtherThan(id: Id): PendingRow -> bool {
    (r: PendingRow) => r.id != id
  }

  /** `deletePendingRecord`: removes the record with that id and reports
      whether the store accepted the delete, also when no row matched. */
  function DeletePendingRecord(s: Store, id: Id, fails: bool): (r: Reply<bool>)
    ensures r.value == !fails
    ensures fails ==> r.store == s
    ensures r.store.clients == s.clients && r.store.visits == s.visits
    ensures !fails ==> !HasKey(r.store.pending, PendingKey, id)
    ensures forall x: PendingRow :: x.id != id ==> multiset(r.store.pending)[x] == multiset(s.pending)[x]
  {
    if fails then Reply(s, false)
    else
      Seqs.FilterMultiset(s.pending, OtherThan(id));
      Reply(s.(pending := Seqs.Filter(s.pending, OtherThan(id))), true)
  }

  /** Completing twice reports success both times and leaves the same store
      as completing once. */
  lemma CompleteIdempotent(s: Store, id: Id)
    ensures var once := CompletePendingRecord(s, id, false);
      var twice := CompletePendingRecord(once.store, id, false);
      once.value && twice.value && twice.store == once.store
  {
    var once := CompletePendingRecord(s, id, false);
    var twice := CompletePendingRecord(once.store, id, false);
    assert twice.store.pending == once.store.pending;
  }

  /** Every record of the active list is the projection of an active row. */
  lemma ListedFromActiveRow(s: Store, fails: bool, x: PendingRecord)
    requires x in GetPendingRecords(s, fails)
    ensures exists m :: 0 <= m < |s.pending| && IsActive(s.pending[m]) && RowToRecord(s.pending[m]) == x
  {
    assert x in multiset(GetPendingRecords(s, fails));
    ActiveRecordFromRow(s.pending, x);
  }

  lemma ActiveRecordFromRow(rows: seq<PendingRow>, x: PendingRecord)
    requires x in multiset(ActiveRecords(rows))
    ensures exists m :: 0 <= m < |rows| && IsActive(rows[m]) && RowToRecord(rows[m]) == x
  {
    var active := Seqs.Filter(rows, IsActive);
    var k :| 0 <= k < |active| && RowToRecord(active[k]) == x;
    Seqs.FilterMultiset(rows, IsActive);
    assert active[k] in multiset(rows);
    var m :| 0 <= m < |rows| && rows[m] == active[k];
  }

  /** A completed record is no longer in the active list. */
  lemma CompletedLeavesActiveList(s: Store, id: Id, listFails: bool)
    ensures forall x: PendingRecord :: x in GetPendingRecords(CompletePendingRecord(s, id, false).store, listFails) ==> x.id != id
  {
    var s' := CompletePendingRecord(s, id, false).store;
    forall x | x in GetPendingRecords(s', listFails) ensures x.id != id {
      ListedFromActiveRow(s', listFails, x);
      var m :| 0 <= m < |s'.pending| && IsActive(s'.pending[m]) && RowToRecord(s'.pending[m]) == x;
    }
  }

  /** A deleted record is no longer in the active list. */
  lemma DeletedLeavesActiveList(s: Store, id: Id, listFails: bool)
    ensures forall x: PendingRecord :: x in GetPendingRecords(DeletePendingRecord(s, id, false).store, listFails) ==> x.id != id
  {
    var s' := DeletePendingRecord(s, id, false).store;
    forall x | x in GetPendingRecords(s', listFails) ensures x.id != id {
      ListedFromActiveRow(s', listFails, x);
      var m :| 0 <= m < |s'.pending| && IsActive(s'.pending[m]) && RowToRecord(s'.pending[m]) == x;
    }
  }

  /** The active list depends on the pending records alone. */
  lemma ListReadsOnlyPending(s: Store, t: Store, fails: bool)
    requires s.pending == t.pending
    ensures GetPendingRecords(s, fails) == GetPendingRecords(t, fails)
  {
  }

  /** A record that was just created is in the active list. */
  lemma CreatedIsActive(s: Store, clientName: string, appointmentId: string, appointmentDate: Date,
                        freshId: Id, now: Date)
    requires !HasKey(s.pending, PendingKey, freshId) && !HasKey(s.pending, AppointmentKey, appointmentId)
    ensures var created := CreatePendingRecord(s, clientName, appointmentId, appointmentDate, freshId, now, false);
      created.value.Some? && created.value.value in GetPendingRecords(created.store, false)
  {
    var created := CreatePendingRecord(s, clientName, appointmentId, appointmentDate, freshId, now, false);
    var row := created.store.pending[|s.pending|];
    Seqs.FilterKeeps(created.store.pending, IsActive, |s.pending|);
    var active := Seqs.Filter(created.store.pending, IsActive);
    var k :| 0 <= k < |active| && active[k] == row;
    assert RowToRecord(row) in ActiveRecords(created.store.pending);
    assert created.value.value in multiset(GetPendingRecords(created.store, false));
  }

  /** A second record for the same appointment is refused, whatever its id,
      and the first stays as it was. */
  lemma OneRecordPerAppointment(s: Store, clientName: string, appointmentId: string, appointmentDate: Date,
                                firstId: Id, secondId: Id, now: Date, otherName: string, otherDate: Date, later: Date)
    requires !HasKey(s.pending, PendingKey, firstId) && !HasKey(s.pending, AppointmentKey, appointmentId)
    ensures var first := CreatePendingRecord(s, clientName, appointmentId, appointmentDate, firstId, now, false);
      var second := CreatePendingRecord(first.store, otherName, appointmentId, otherDate, secondId, later, false);
      && first.value.Some? && second.value.None? && second.store == first.store
  {
    var first := CreatePendingRecord(s, clientName, appointmentId, appointmentDate, firstId, now, false);
    assert AppointmentKey(first.store.pending[|s.pending|]) == appointmentId;
  }

  /** Deleting an id no record carries still reports success, and changes nothing. */
  lemma DeleteMissingReportsSuccess(s: Store, id: Id)
    requires !HasKey(s.pending, PendingKey, id)
    ensures DeletePendingRecord(s, id, false) == Reply(s, true)
  {
    Seqs.FilterAll(s.pending, OtherThan(id));
  }

  /** Completing keeps the schema's constraints: only the flag changes. */
  lemma CompleteKeepsWellformed(s: Store, id: Id, fails: bool)
    requires Wellformed(s)
    ensures Wellformed(CompletePendingRecord(s, id, fails).store)
  {
  }

  /** Deleting keeps the schema's constraints: the remaining rows keep their
      keys. */
  lemma DeleteKeepsWellformed(s: Store, id: Id, fails: bool)
    requires Wellformed(s)
    ensures Wellformed(DeletePendingRecord(s, id, fails).store)
  {
    if !fails {
      Tables.FilterKeepsUniqueKey(s.pending, PendingKey, OtherThan(id));
      Tables.FilterKeepsUniqueKey(s.pending, AppointmentKey, OtherThan(id));
    }
  }

  /** Creating keeps the schema's constraints: the insert is refused when
      the id or the appointment is already on file. */
  lemma CreateKeepsWellformed(s: Store, clientName: string, appointmentId: string, appointmentDate: Date,
                              freshId: Id, now: Date, fails: bool)
    requires Wellformed(s)
    ensures Wellformed(CreatePendingRecord(s, clientName, appointmentId, appointmentDate, freshId, now, fails).store)
  {
  }
}

=== FILE: pending_records_list.dfy ===
/** The pending-records panel: completing or deleting a record, and turning
    a record into a new client file pre-filled with the name it carries. */
module PendingRecordsList {
  import opened Domain
  import opened Tables
  import Text
  import PendingRecords

  datatype NameParts = NameParts(firstName: string, lastName: string)

  /** The name split of `handleCreateRecord`: the first whitespace-separated
      word of the trimmed name is the first name, and the remaining words,
      joined by single spaces, are the surname. */
  function SplitClientName(clientName: string): (r: NameParts)
    ensures Text.NoSpace(r.firstName)
    ensures |r.firstName| <= |Text.Trim(clientName)|
    ensures r.firstName == Text.Trim(clientName)[..|r.firstName|]
    ensures |r.firstName| == |Text.Trim(clientName)| || Text.IsSpace(Text.Trim(clientName)[|r.firstName|])
    ensures r.firstName == "" <==> Text.AllSpace(clientName)
    ensures Text.NoSpace(Text.Trim(clientName)) ==> r.lastName == ""
    ensures r.lastName == Text.Collapse(Text.TrimStart(Text.Trim(clientName)[|r.firstName|..]))
    ensures r.lastName != "" ==> r.firstName + " " + r.lastName == Text.Collapse(Text.Trim(clientName))
  {
    var t := Text.Trim(clientName);
    var parts := Text.Fields(t);
    var k := Text.WordLen(t);
    Text.FirstField(t);
    assert t != [] ==> k > 0;
    assert k == |t| ==> parts == [t] && Text.Collapse(Text.TrimStart(t[k..])) == "" by {
      if k == |t| { Text.SplitOneWord(t); }
    }
    assert k < |t| ==>
      && Text.Join(parts[1..], " ") == Text.Collapse(Text.TrimStart(t[k..]))
      && Text.Collapse(Text.TrimStart(t[k..])) != []
      && Text.Collapse(t) == t[..k] + " " + Text.Collapse(Text.TrimStart(t[k..])) by {
      if k < |t| { Text.SplitSeveralWords(t); }
    }
    // `nameParts[0] || ''` and `... .join(' ') || ''` change nothing: both
    // sides are strings, and an empty one is replaced by an empty one.
    NameParts(parts[0], Text.Join(parts[1..], " "))
  }

  /** A name of one word, surrounded by any whitespace, becomes a first name
      with an empty surname. */
  lemma SingleWordName(pre: string, word: string, post: string)
    requires Text.AllSpace(pre) && Text.AllSpace(post)
    requires word != [] && Text.NoSpace(word)
    ensures SplitClientName(pre + word + post) == NameParts(word, "")
  {
    Text.TrimAround(pre, word, post);
  }

  /** The query of the new-client page that `handleCreateRecord` opens. */
  datatype NewClientQuery = NewClientQuery(name: string, surname: string, pendingId: Id)

  function HandleCreateRecord(record: PendingRecord): (q: NewClientQuery)
    ensures q.pendingId == record.id
    ensures NameParts(q.name, q.surname) == SplitClientName(record.clientName)
  {
    var parts := SplitClientName(record.clientName);
    NewClientQuery(parts.firstName, parts.lastName, record.id)
  }

  /** `handleComplete`: the list shown is reloaded only when completing
      reports success, and then no longer holds the record. */
  function HandleComplete(s: Store, shown: seq<PendingRecord>, id: Id, fails: bool, listFails: bool)
    : (r: Reply<seq<PendingRecord>>)
    ensures fails ==> r == Reply(s, shown)
    ensures r.store == PendingRecords.CompletePendingRecord(s, id, fails).store
    ensures !fails ==> r.value == PendingRecords.GetPendingRecords(r.store, listFails)
    ensures !fails ==> forall x :: x in r.value ==> x.id != id
  {
    var done := PendingRecords.CompletePendingRecord(s, id, fails);
    PendingRecords.CompletedLeavesActiveList(s, id, listFails);
    if done.value then Reply(done.store, PendingRecords.GetPendingRecords(done.store, listFails))
    else Reply(done.store, shown)
  }

  /** `handleDelete`: the same for deleting. */
  function HandleDelete(s: Store, shown: seq<PendingRecord>, id: Id, fails: bool, listFails: bool)
    : (r: Reply<seq<PendingRecord>>)
    ensures fails ==> r == Reply(s, shown)
    ensures r.store == PendingRecords.DeletePendingRecord(s, id, fails).store
    ensures !fails ==> r.value == PendingRecords.GetPendingRecords(r.store, listFails)
    ensures !fails ==> forall x :: x in r.value ==> x.id != id
    ensures !fails ==> !HasKey(r.store.pending, PendingKey, id)
  {
    var done := PendingRecords.DeletePendingRecord(s, id, fails);
    PendingRecords.DeletedLeavesActiveList(s, id, listFails);
    if done.value then Reply(done.store, PendingRecords.GetPendingRecords(done.store, listFails))
    else Reply(done.store, shown)
  }
}

=== FILE: route.dfy ===
/** The HTTP endpoint `/api/pending-records`, through which the booking
    integration files pending records (`POST`) and reads the active list
    (`GET`). */
module PendingRecordsRoute {
  import opened Domain
  import opened Tables
  import PendingRecords

  /** A request body: JSON that could not be parsed, the JSON value `null`
      (which the destructuring of the body throws on), or any other JSON value
      seen through the three fields the endpoint reads. `None` is a field
      that is absent or `null`; an array or a scalar has every field absent.
      A field of another JSON type than text is not modelled. */
  datatype Body =
    | Unparsable
    | Null
    | Json(clientName: Option<string>, appointmentId: Option<string>, appointmentDate: Option<string>)

  datatype Payload =
    | MissingFields(error: string, required: seq<string>)
    | Failure(error: string)
    | Created(success: bool, record: PendingRecord)
    | Listed(success: bool, records: seq<PendingRecord>)

  datatype Response = Response(status: int, payload: Payload)

  const RequiredFields := ["clientName", "appointmentId", "appointmentDate"]
  const MissingFieldsError := "Missing required fields"
  const CreateFailedError := "Failed to create pending record"
  const InternalError := "Internal server error"

  predicate HasRequiredFields(body: Body) {
    body.Json? && Truthy(body.clientName) && Truthy(body.appointmentId) && Truthy(body.appointmentDate)
  }

  /** `POST`: 400 with the list of required fields when one is missing or
      empty, before the store is touched; 500 when the body cannot be parsed
      or destructured, or the record cannot be created; 201 with the created
      record otherwise. The date text is handed to the store, whose reading
      of it is `dateOf`. */
  function Post(s: Store, body: Body, dateOf: string -> Date, freshId: Id, now: Date, fails: bool): (r: Reply<Response>)
    ensures !body.Json? ==> r == Reply(s, Response(500, Failure(InternalError)))
    ensures r.value.status == 400 <==> body.Json? && !HasRequiredFields(body)
    ensures r.value.status == 400 ==>
      r.store == s && r.value.payload == MissingFields(MissingFieldsError, RequiredFields)
    ensures r.value.status == 201 <==>
      && HasRequiredFields(body) && !fails && !HasKey(s.pending, PendingKey, freshId)
      && !HasKey(s.pending, AppointmentKey, body.appointmentId.value)
    ensures r.value.status == 201 ==>
      r.value.payload == Created(true, PendingRecord(freshId, body.clientName.value, body.appointmentId.value,
                                                     dateOf(body.appointmentDate.value), now, false))
    ensures HasRequiredFields(body) ==>
      r.store == PendingRecords.CreatePendingRecord(s, body.clientName.value, body.appointmentId.value,
                                                    dateOf(body.appointmentDate.value), freshId, now, fails).store
    ensures r.value.status == 500 && body.Json? ==>
      r.store == s && r.value.payload == Failure(CreateFailedError)
    ensures r.value.status in {201, 400, 500}
  {
    if !body.Json? then Reply(s, Response(500, Failure(InternalError)))
    else if !HasRequiredFields(body) then
      Reply(s, Response(400, MissingFields(MissingFieldsError, RequiredFields)))
    else
      var created := PendingRecords.CreatePendingRecord(
        s, body.clientName.value, body.appointmentId.value, dateOf(body.appointmentDate.value), freshId, now, fails);
      match created.value
      case None => Reply(created.store, Response(500, Failure(CreateFailedError)))
      case Some(record) => Reply(created.store, Response(201, Created(true, record)))
  }

  /** `GET`: always a success carrying the active list. Because listing turns
      a store error into an empty list, a store error reads as success with
      no records. */
  function Get(s: Store, fails: bool): (r: Response)
    ensures r.status == 200 && r.payload.Listed? && r.payload.success
    ensures r.payload.records == PendingRecords.GetPendingRecords(s, fails)
    ensures fails ==> r.payload.records == []
    ensures forall i :: 0 <= i < |r.payload.records| ==> !r.payload.records[i].isCompleted
  {
    Response(200, Listed(true, PendingRecords.GetPendingRecords(s, fails)))
  }

  /** A record filed through `POST` appears in the next `GET`. */
  lemma PostThenGet(s: Store, body: Body, dateOf: string -> Date, freshId: Id, now: Date)
    requires HasRequiredFields(body) && !HasKey(s.pending, PendingKey, freshId)
    requires !HasKey(s.pending, AppointmentKey, body.appointmentId.value)
    ensures var posted := Post(s, body, dateOf, freshId, now, false);
      && posted.value.status == 201
      && posted.value.payload.record in Get(posted.store, false).payload.records
  {
    PendingRecords.CreatedIsActive(s, body.clientName.value, body.appointmentId.value,
                                   dateOf(body.appointmentDate.value), freshId, now);
  }
}

=== FILE: seqs.dfy ===
/** Sequence operations shared by every query of the model: the `WHERE`
    filter, the row-to-entity projection and the `ORDER BY` sort. */
module Seqs {

  /** Keeps the elements that satisfy `p`, in their original order. */
  function Filter<T(!new)>(s: seq<T>, p: T -> bool): (r: seq<T>)
    ensures |r| <= |s|
    ensures forall i :: 0 <= i < |r| ==> p(r[i])
  {
    if s == [] then []
    else (if p(s[0]) then [s[0]] else []) + Filter(s[1..], p)
  }

  /** `Filter` keeps every copy of an element satisfying `p` and no copy of
      any other. */
  lemma {:induction false} FilterMultiset<T(!new)>(s: seq<T>, p: T -> bool)
    ensures forall x :: multiset(Filter(s, p))[x] == if p(x) then multiset(s)[x] else 0
  {
    if s != [] {
      assert s == [s[0]] + s[1..];
      FilterMultiset(s[1..], p);
    }
  }

  /** Each kept element is an element of the input. */
  lemma FilterFrom<T(!new)>(s: seq<T>, p: T -> bool, k: nat)
    requires k < |Filter(s, p)|
    ensures exists m :: 0 <= m < |s| && s[m] == Filter(s, p)[k]
  {
    FilterMultiset(s, p);
    assert Filter(s, p)[k] in multiset(Filter(s, p));
    assert Filter(s, p)[k] in multiset(s);
  }

  lemma {:induction false} FilterAppend<T(!new)>(a: seq<T>, b: seq<T>, p: T -> bool)
    ensures Filter(a + b, p) == Filter(a, p) + Filter(b, p)
  {
    if a == [] {
      assert a + b == b;
    } else {
      var rest := a[1..] + b;
      assert a + b == [a[0]] + rest;
      FilterAppend(a[1..], b, p);
      if p(a[0]) {
        assert Filter(a + b, p) == [a[0]] + Filter(rest, p);
      } else {
        assert Filter(a + b, p) == Filter(rest, p);
      }
    }
  }

  /** Appending one element appends it to the filtered sequence exactly
      when it satisfies `p`. */
  lemma {:induction false} FilterSnoc<T(!new)>(s: seq<T>, x: T, p: T -> bool)
    ensures Filter(s + [x], p) == Filter(s, p) + (if p(x) then [x] else [])
  {
    FilterAppend(s, [x], p);
    assert [x][1..] == [];
  }

  /** An element satisfying `p` is kept by `Filter`. */
  lemma FilterKeeps<T(!new)>(s: seq<T>, p: T -> bool, i: nat)
    requires i < |s| && p(s[i])
    ensures s[i] in Filter(s, p)
  {
    FilterMultiset(s, p);
    assert s[i] in multiset(s);
    assert multiset(Filter(s, p))[s[i]] > 0;
  }

  /** A sequence none of whose elements satisfies `p` filters to nothing. */
  lemma FilterNone<T(!new)>(s: seq<T>, p: T -> bool)
    requires forall i :: 0 <= i < |s| ==> !p(s[i])
    ensures Filter(s, p) == []
  {
  }

  /** A sequence exactly one of whose elements satisfies `p` filters to
      that element alone. */
  lemma {:induction false} FilterSingle<T(!new)>(s: seq<T>, p: T -> bool, i: nat)
    requires i < |s| && p(s[i])
    requires forall j :: 0 <= j < |s| && j != i ==> !p(s[j])
    ensures Filter(s, p) == [s[i]]
  {
    if i == 0 {
      FilterNone(s[1..], p);
    } else {
      assert !p(s[0]);
      FilterSingle(s[1..], p, i - 1);
    }
  }

  /** A sequence all of whose elements satisfy `p` filters to itself. */
  lemma {:induction false} FilterAll<T(!new)>(s: seq<T>, p: T -> bool)
    requires forall i :: 0 <= i < |s| ==> p(s[i])
    ensures Filter(s, p) == s
  {
    if s != [] {
      FilterAll(s[1..], p);
    }
  }

  /** Applies `f` to every element. */
  function Map<A, B>(s: seq<A>, f: A -> B): (r: seq<B>)
    ensures |r| == |s|
    ensures forall i :: 0 <= i < |s| ==> r[i] == f(s[i])
  {
    seq(|s|, i requires 0 <= i < |s| => f(s[i]))
  }

  lemma {:induction false} MapAppend<A, B>(a: seq<A>, b: seq<A>, f: A -> B)
    ensures Map(a + b, f) == Map(a, f) + Map(b, f)
  {
  }

  /** Removing the element at `k` removes one copy of it from the multiset. */
  lemma MultisetRemoveAt<T>(t: seq<T>, k: nat)
    requires k < |t|
    ensures multiset(t[..k] + t[k + 1..]) == multiset(t) - multiset{t[k]}
  {
    assert t == t[..k] + [t[k]] + t[k + 1..];
  }

  /** The sequence without the element at position `k`. */
  function RemoveAt<T>(s: seq<T>, k: nat): (r: seq<T>)
    requires k < |s|
    ensures |r| == |s| - 1
    ensures forall i :: 0 <= i < |r| ==> r[i] == if i < k then s[i] else s[i + 1]
    ensures multiset(r) == multiset(s) - multiset{s[k]}
  {
    MultisetRemoveAt(s, k);
    s[..k] + s[k + 1..]
  }

  /** Projecting a sequence projects the element at `k` and the rest. */
  lemma MapRemoveAt<A, B>(t: seq<A>, k: nat, f: A -> B)
    requires k < |t|
    ensures multiset(Map(t, f)) == multiset(Map(t[..k] + t[k + 1..], f)) + multiset{f(t[k])}
  {
    assert t == t[..k] + [t[k]] + t[k + 1..];
    MapAppend(t[..k] + [t[k]], t[k + 1..], f);
    MapAppend(t[..k], [t[k]], f);
    MapAppend(t[..k], t[k + 1..], f);
  }

  /** Projecting a non-empty sequence projects its head and its tail. */
  lemma MapHead<A, B>(s: seq<A>, f: A -> B)
    requires s != []
    ensures multiset(Map(s, f)) == multiset(Map(s[1..], f)) + multiset{f(s[0])}
  {
    assert Map(s, f) == [f(s[0])] + Map(s[1..], f);
  }

  /** Projecting two permutations of each other gives permutations of each other. */
  lemma {:induction false} MapPermutation<A, B>(s: seq<A>, t: seq<A>, f: A -> B)
    requires multiset(s) == multiset(t)
    ensures multiset(Map(s, f)) == multiset(Map(t, f))
  {
    if s == [] {
      assert |t| == |multiset(t)| == 0;
    } else {
      assert s == [s[0]] + s[1..];
      assert s[0] in multiset(t);
      var k :| 0 <= k < |t| && t[k] == s[0];
      var rest := t[..k] + t[k + 1..];
      MultisetRemoveAt(t, k);
      MapPermutation(s[1..], rest, f);
      MapRemoveAt(t, k, f);
      MapHead(s, f);
    }
  }

  /** `le` is a total preorder: any two elements compare, and comparison chains. */
  ghost predicate TotalPreorder<T(!new)>(le: (T, T) -> bool) {
    && (forall a, b :: le(a, b) || le(b, a))
    && (forall a, b, c :: le(a, b) && le(b, c) ==> le(a, c))
  }

  predicate SortedBy<T>(s: seq<T>, le: (T, T) -> bool) {
    forall i, j :: 0 <= i < j < |s| ==> le(s[i], s[j])
  }

  /** A sorted sequence stays sorted under a new head that is `le` to all
      its elements. */
  lemma SortedCons<T>(h: T, s: seq<T>, le: (T, T) -> bool)
    requires SortedBy(s, le) && forall j :: 0 <= j < |s| ==> le(h, s[j])
    ensures SortedBy([h] + s, le)
  {
    forall i, j | 0 <= i < j < |[h] + s| ensures le(([h] + s)[i], ([h] + s)[j]) {
      assert ([h] + s)[j] == s[j - 1];
      if i > 0 {
        assert ([h] + s)[i] == s[i - 1];
      }
    }
  }

  /** The head of a sorted sequence is `le` to everything in a permutation of
      its tail with one more element it is `le` to. */
  lemma HeadBelowAll<T(!new)>(s: seq<T>, x: T, tail: seq<T>, le: (T, T) -> bool)
    requires s != [] && SortedBy(s, le) && le(s[0], x)
    requires multiset(tail) == multiset(s[1..]) + multiset{x}
    ensures forall j :: 0 <= j < |tail| ==> le(s[0], tail[j])
  {
    forall j | 0 <= j < |tail| ensures le(s[0], tail[j]) {
      assert tail[j] in multiset(tail);
      if tail[j] != x {
        assert tail[j] in multiset(s[1..]);
        var k :| 0 <= k < |s[1..]| && s[1..][k] == tail[j];
        assert s[k + 1] == tail[j];
      }
    }
  }

  /** Inserts `x` before the first element it is `le` to, so that it stays
      ahead of the elements it ties with. */
  function Insert<T(!new)>(x: T, s: seq<T>, le: (T, T) -> bool): (r: seq<T>)
    requires TotalPreorder(le)
    ensures multiset(r) == multiset(s) + multiset{x}
    ensures SortedBy(s, le) ==> SortedBy(r, le)
  {
    if s == [] then [x]
    else if le(x, s[0]) then
      assert SortedBy(s, le) ==> forall j :: 0 <= j < |s| ==> le(x, s[j]);
      assert SortedBy(s, le) ==> SortedBy([x] + s, le) by {
        if SortedBy(s, le) { SortedCons(x, s, le); }
      }
      [x] + s
    else
      var tail := Insert(x, s[1..], le);
      assert s == [s[0]] + s[1..];
      assert SortedBy(s, le) ==> SortedBy([s[0]] + tail, le) by {
        if SortedBy(s, le) {
          assert SortedBy(s[1..], le);
          HeadBelowAll(s, x, tail, le);
          SortedCons(s[0], tail, le);
        }
      }
      [s[0]] + tail
  }

  /** Stable insertion sort: the model of an `ORDER BY` and of JavaScript's
      (stable) `Array.prototype.sort`. */
  function SortBy<T(!new)>(s: seq<T>, le: (T, T) -> bool): (r: seq<T>)
    requires TotalPreorder(le)
    ensures multiset(r) == multiset(s)
    ensures SortedBy(r, le)
  {
    if s == [] then []
    else
      assert s == [s[0]] + s[1..];
      Insert(s[0], SortBy(s[1..], le), le)
  }
}

=== FILE: tables.dfy ===
/** The hosted relational store as a value: the three tables, the row
    predicates the gateway filters on, and the integrity assumed of the schema
    (primary keys, unique appointment ids, and the foreign key from `visits`
    to `clients_records`). */
module Tables {
  import opened Domain
  import Seqs

  /** `clients_records`, `visits` and `pending_records`, each in storage order. */
  datatype Store = Store(clients: seq<ClientRow>, visits: seq<VisitRow>, pending: seq<PendingRow>)

  /** The store after an operation, together with what the operation returned. */
  datatype Reply<T> = Reply(store: Store, value: T)

  /** `.eq('id', id)` on `clients_records`. */
  function ClientHasId(id: Id): ClientRow -> bool {
    (r: ClientRow) => r.id == id
  }

  /** `.eq('client_id', id)` on `visits`. */
  function VisitOfClient(id: Id): VisitRow -> bool {
    (r: VisitRow) => r.client_id == id
  }

  /** `.eq('id', id)` on `pending_records`. */
  function PendingHasId(id: Id): PendingRow -> bool {
    (r: PendingRow) => r.id == id
  }

  /** `.single()`: the one row a query matched; an error for none or several. */
  function Single<T>(rows: seq<T>): Option<T> {
    if |rows| == 1 then Some(rows[0]) else None
  }

  /** The key columns the schema constrains. */
  function ClientKey(r: ClientRow): Id { r.id }
  function VisitKey(r: VisitRow): Id { r.id }
  function PendingKey(r: PendingRow): Id { r.id }
  function AppointmentKey(r: PendingRow): string { r.appointment_id }

  /** Some row carries `k` in the column `key` reads. */
  predicate HasKey<T>(rows: seq<T>, key: T -> string, k: string) {
    exists i :: 0 <= i < |rows| && key(rows[i]) == k
  }

  /** No two rows carry the same value in the column `key` reads: a primary
      key or a `UNIQUE` column. */
  predicate UniqueKey<T>(rows: seq<T>, key: T -> string) {
    forall i, j :: 0 <= i < j < |rows| ==> key(rows[i]) != key(rows[j])
  }

  /** The integrity constraints assumed of the schema: the primary keys, one
      pending record per appointment, and the foreign key from `visits` to
      `clients_records`. */
  predicate Wellformed(s: Store) {
    && UniqueKey(s.clients, ClientKey)
    && UniqueKey(s.visits, VisitKey)
    && UniqueKey(s.pending, PendingKey)
    && UniqueKey(s.pending, AppointmentKey)
    && forall k :: 0 <= k < |s.visits| ==> HasKey(s.clients, ClientKey, s.visits[k].client_id)
  }

  /** Under the primary key, looking a client up by id matches exactly its row. */
  lemma ClientLookup(rows: seq<ClientRow>, i: nat)
    requires UniqueKey(rows, ClientKey) && i < |rows|
    ensures Seqs.Filter(rows, ClientHasId(rows[i].id)) == [rows[i]]
  {
    var p := ClientHasId(rows[i].id);
    forall j | 0 <= j < |rows| && j != i ensures !p(rows[j]) {
      if j < i {
        assert rows[j].id != rows[i].id;
      } else {
        assert rows[i].id != rows[j].id;
      }
    }
    Seqs.FilterSingle(rows, p, i);
  }

  /** An id no row carries matches nothing. */
  lemma ClientLookupMissing(rows: seq<ClientRow>, id: Id)
    requires !HasKey(rows, ClientKey, id)
    ensures Seqs.Filter(rows, ClientHasId(id)) == []
  {
    Seqs.FilterNone(rows, ClientHasId(id));
  }

  /** Dropping rows keeps a key unique. */
  lemma {:induction false} FilterKeepsUniqueKey<T(!new)>(rows: seq<T>, key: T -> string, p: T -> bool)
    requires UniqueKey(rows, key)
    ensures UniqueKey(Seqs.Filter(rows, p), key)
  {
    if rows != [] {
      var x, rest := rows[0], rows[1..];
      var kept := Seqs.Filter(rest, p);
      assert UniqueKey(rest, key) by {
        forall i, j | 0 <= i < j < |rest| ensures key(rest[i]) != key(rest[j]) {
          assert rest[i] == rows[i + 1] && rest[j] == rows[j + 1];
        }
      }
      FilterKeepsUniqueKey(rest, key, p);
      if p(x) {
        forall k | 0 <= k < |kept| ensures key(kept[k]) != key(x) {
          Seqs.FilterFrom(rest, p, k);
          var m :| 0 <= m < |rest| && rest[m] == kept[k];
          assert rows[m + 1] == kept[k];
        }
        assert Seqs.Filter(rows, p) == [x] + kept;
      } else {
        assert Seqs.Filter(rows, p) == kept;
      }
    }
  }
}

=== FILE: text.dfy ===
/** The string operations the application relies on, with JavaScript's and
    PostgreSQL's meaning: UTF-16 length, `\s` whitespace, `trim`,
    `split(/\s+/)`, `join`, case-insensitive substring matching and the
    ordering of text columns. */
module Text {
  import Seqs

  /** JavaScript's `length`: UTF-16 code units, two for a character outside
      the Basic Multilingual Plane. */
  function JsLength(s: string): (n: nat)
    ensures |s| <= n <= 2 * |s|
    ensures (forall i :: 0 <= i < |s| ==> s[i] as int <= 0xFFFF) ==> n == |s|
  {
    if s == [] then 0
    else (if s[0] as int > 0xFFFF then 2 else 1) + JsLength(s[1..])
  }

  /** The characters matched by `\s` and removed by `trim()`: ECMAScript's
      WhiteSpace and LineTerminator productions. */
  predicate IsSpace(c: char) {
    || c == ' ' || c == '\t' || c == '\n' || c == '\r'
    || c == '\U{000B}' || c == '\U{000C}' || c == '\U{00A0}' || c == '\U{1680}'
    || ('\U{2000}' <= c <= '\U{200A}')
    || c == '\U{2028}' || c == '\U{2029}' || c == '\U{202F}' || c == '\U{205F}'
    || c == '\U{3000}' || c == '\U{FEFF}'
  }

  predicate NoSpace(s: string) {
    forall i :: 0 <= i < |s| ==> !IsSpace(s[i])
  }

  predicate AllSpace(s: string) {
    forall i :: 0 <= i < |s| ==> IsSpace(s[i])
  }

  /** `trimStart()`: drops the leading whitespace. */
  function TrimStart(s: string): (r: string)
    ensures |r| <= |s| && r == s[|s| - |r|..]
    ensures AllSpace(s[..|s| - |r|])
    ensures r == [] || !IsSpace(r[0])
  {
    if s != [] && IsSpace(s[0]) then TrimStart(s[1..]) else s
  }

  /** `trimEnd()`: drops the trailing whitespace. */
  function TrimEnd(s: string): (r: string)
    ensures |r| <= |s| && r == s[..|r|]
    ensures AllSpace(s[|r|..])
    ensures r == [] || !IsSpace(r[|r| - 1])
  {
    if s != [] && IsSpace(s[|s| - 1]) then TrimEnd(s[..|s| - 1]) else s
  }

  /** `trim()`. */
  function Trim(s: string): (r: string)
    ensures r == [] || (!IsSpace(r[0]) && !IsSpace(r[|r| - 1]))
    ensures r == [] <==> AllSpace(s)
  {
    var t := TrimStart(s);
    assert s == s[..|s| - |t|] + t;
    TrimEnd(t)
  }

  /** `trimStart` drops exactly a leading whitespace run. */
  lemma {:induction false} TrimStartDrops(pre: string, rest: string)
    requires AllSpace(pre) && (rest == [] || !IsSpace(rest[0]))
    ensures TrimStart(pre + rest) == rest
  {
    if pre != [] {
      assert (pre + rest)[1..] == pre[1..] + rest;
      TrimStartDrops(pre[1..], rest);
    }
  }

  /** `trimEnd` drops exactly a trailing whitespace run. */
  lemma {:induction false} TrimEndDrops(rest: string, post: string)
    requires AllSpace(post) && (rest == [] || !IsSpace(rest[|rest| - 1]))
    ensures TrimEnd(rest + post) == rest
  {
    if post != [] {
      var s := rest + post;
      assert s[..|s| - 1] == rest + post[..|post| - 1];
      TrimEndDrops(rest, post[..|post| - 1]);
    } else {
      assert rest + post == rest;
    }
  }

  /** `trim` of a word surrounded by whitespace is the word. */
  lemma {:induction false} TrimAround(pre: string, word: string, post: string)
    requires AllSpace(pre) && AllSpace(post) && word != [] && NoSpace(word)
    ensures Trim(pre + word + post) == word
  {
    assert pre + word + post == pre + (word + post);
    TrimStartDrops(pre, word + post);
    TrimEndDrops(word, post);
  }

  /** Length of the run of non-whitespace characters that starts `s`. */
  function WordLen(s: string): (k: nat)
    ensures k <= |s| && NoSpace(s[..k])
    ensures k == |s| || IsSpace(s[k])
  {
    if s == [] || IsSpace(s[0]) then 0 else 1 + WordLen(s[1..])
  }

  /** `s.split(/\s+/)`: the pieces between maximal whitespace runs, with an
      empty first (last) piece when `s` starts (ends) with whitespace, and
      `[""]` for the empty string. */
  function Fields(s: string): (r: seq<string>)
    ensures |r| >= 1
    ensures forall i :: 0 <= i < |r| ==> NoSpace(r[i])
    decreases |s|
  {
    var k := WordLen(s);
    if k == |s| then [s]
    else
      var rest := TrimStart(s[k..]);
      assert |rest| < |s[k..]|;
      [s[..k]] + Fields(rest)
  }

  /** `parts.join(sep)`. */
  function Join(parts: seq<string>, sep: string): string {
    if |parts| == 0 then ""
    else if |parts| == 1 then parts[0]
    else parts[0] + sep + Join(parts[1..], sep)
  }

  /** Reference definition: every run of whitespace replaced by one space. */
  function Collapse(s: string): string
    decreases |s|
  {
    if s == [] then []
    else if IsSpace(s[0]) then
      var rest := TrimStart(s);
      assert |rest| < |s|;
      " " + Collapse(rest)
    else [s[0]] + Collapse(s[1..])
  }

  /** A character that is not whitespace passes through `Collapse`. */
  lemma {:induction false} CollapseWordHead(s: string)
    requires s != [] && !IsSpace(s[0])
    ensures Collapse(s) == [s[0]] + Collapse(s[1..])
  {
  }

  /** A whitespace-free word in front passes through `Collapse` unchanged. */
  lemma {:induction false} CollapseWord(w: string, rest: string)
    requires NoSpace(w)
    ensures Collapse(w + rest) == w + Collapse(rest)
  {
    if w == [] {
      assert w + rest == rest;
    } else {
      var s := w + rest;
      assert s[0] == w[0] && s[1..] == w[1..] + rest;
      CollapseWordHead(s);
      CollapseWord(w[1..], rest);
      assert [w[0]] + (w[1..] + Collapse(rest)) == w + Collapse(rest);
    }
  }

  /** A whitespace-free prefix passes through `Collapse` unchanged. */
  lemma CollapsePrefix(s: string, k: nat)
    requires k <= |s| && NoSpace(s[..k])
    ensures Collapse(s) == s[..k] + Collapse(s[k..])
  {
    assert s == s[..k] + s[k..];
    CollapseWord(s[..k], s[k..]);
  }

  /** Splitting on whitespace runs and joining with single spaces is the
      same as collapsing every whitespace run to one space. */
  lemma {:induction false} JoinFieldsIsCollapse(s: string)
    ensures Join(Fields(s), " ") == Collapse(s)
    decreases |s|
  {
    var k := WordLen(s);
    CollapsePrefix(s, k);
    if k == |s| {
      assert s[..k] == s && s[k..] == [];
    } else {
      var rest := TrimStart(s[k..]);
      assert |rest| < |s[k..]|;
      JoinFieldsIsCollapse(rest);
      assert Fields(s) == [s[..k]] + Fields(rest);
      assert Fields(s)[1..] == Fields(rest);
      assert IsSpace(s[k..][0]);
    }
  }

  /** The first piece of a split is the leading word. */
  lemma {:induction false} FirstField(s: string)
    ensures Fields(s)[0] == s[..WordLen(s)]
  {
    if WordLen(s) == |s| {
      assert s[..|s|] == s;
    }
  }

  /** After the leading word and the whitespace run that ends it, the split
      goes on from the next word. */
  lemma {:induction false} LaterFields(s: string)
    requires WordLen(s) < |s|
    ensures Fields(s)[1..] == Fields(TrimStart(s[WordLen(s)..]))
  {
    var k := WordLen(s);
    assert Fields(s) == [s[..k]] + Fields(TrimStart(s[k..]));
  }

  /** A string that ends with a non-space is more than whitespace. */
  lemma {:induction false} TrimStartKeepsLast(s: string)
    requires s != [] && !IsSpace(s[|s| - 1])
    ensures TrimStart(s) != []
  {
    var r := TrimStart(s);
    assert s == s[..|s| - |r|] + r;
  }

  lemma {:induction false} CollapseNonEmpty(s: string)
    requires s != []
    ensures Collapse(s) != []
  {
  }

  /** A single word splits into itself alone. */
  lemma {:induction false} SplitOneWord(t: string)
    requires WordLen(t) == |t|
    ensures Fields(t) == [t]
    ensures Collapse(TrimStart(t[WordLen(t)..])) == ""
  {
    assert t[|t|..] == [];
  }

  /** Several words: the pieces after the first, joined by spaces, are the
      collapsed rest after the first gap. */
  lemma {:induction false} JoinLaterFields(t: string)
    requires WordLen(t) < |t|
    ensures Join(Fields(t)[1..], " ") == Collapse(TrimStart(t[WordLen(t)..]))
  {
    LaterFields(t);
    JoinFieldsIsCollapse(TrimStart(t[WordLen(t)..]));
  }

  /** The rest after the first gap of a string that does not end with
      whitespace collapses to something. */
  lemma {:induction false} RestAfterGapNonEmpty(t: string)
    requires WordLen(t) < |t| && !IsSpace(t[|t| - 1])
    ensures Collapse(TrimStart(t[WordLen(t)..])) != []
  {
    var k := WordLen(t);
    assert t[k..][|t[k..]| - 1] == t[|t| - 1];
    TrimStartKeepsLast(t[k..]);
    CollapseNonEmpty(TrimStart(t[k..]));
  }

  /** Collapsing keeps the first word, one space, then the collapsed rest. */
  lemma {:induction false} CollapseAfterFirstWord(t: string)
    requires WordLen(t) < |t|
    ensures Collapse(t) == t[..WordLen(t)] + " " + Collapse(TrimStart(t[WordLen(t)..]))
  {
    var k := WordLen(t);
    var parts := Fields(t);
    FirstField(t);
    JoinLaterFields(t);
    JoinFieldsIsCollapse(t);
    assert |parts| >= 2 by {
      assert parts == [t[..k]] + Fields(TrimStart(t[k..]));
    }
    assert Join(parts, " ") == parts[0] + " " + Join(parts[1..], " ");
  }

  /** Several words: the pieces after the first, joined by spaces, are the
      collapsed rest after the first gap, which is not empty when the string
      does not end with whitespace, and which completes the collapsed whole. */
  lemma {:induction false} SplitSeveralWords(t: string)
    requires WordLen(t) < |t| && !IsSpace(t[|t| - 1])
    ensures Join(Fields(t)[1..], " ") == Collapse(TrimStart(t[WordLen(t)..]))
    ensures Collapse(TrimStart(t[WordLen(t)..])) != []
    ensures Collapse(t) == t[..WordLen(t)] + " " + Collapse(TrimStart(t[WordLen(t)..]))
  {
    JoinLaterFields(t);
    RestAfterGapNonEmpty(t);
    CollapseAfterFirstWord(t);
  }

  /** Lower-case folding of ASCII and Latin-1 capital letters. */
  function Lower(c: char): char {
    if 'A' <= c <= 'Z' || ('\U{00C0}' <= c <= '\U{00DE}' && c != '\U{00D7}')
    then (c as int + 32) as char
    else c
  }

  function LowerStr(s: string): string {
    Seqs.Map(s, Lower)
  }

  /** `sub` occurs in `s` starting at position `i`. */
  predicate OccursAt(s: string, sub: string, i: int) {
    0 <= i <= |s| - |sub| && s[i..i + |sub|] == sub
  }

  /** `sub` occurs in `s` as a contiguous block. */
  function Contains(s: string, sub: string): (b: bool)
    ensures b <==> exists i :: OccursAt(s, sub, i)
  {
    if |sub| > |s| then false
    else if s[..|sub|] == sub then
      assert OccursAt(s, sub, 0);
      true
    else
      var b := Contains(s[1..], sub);
      assert b ==> exists i :: OccursAt(s, sub, i) by {
        if b {
          var i :| OccursAt(s[1..], sub, i);
          assert s[i + 1..i + 1 + |sub|] == s[1..][i..i + |sub|];
          assert OccursAt(s, sub, i + 1);
        }
      }
      assert (exists i :: OccursAt(s, sub, i)) ==> b by {
        if exists i :: OccursAt(s, sub, i) {
          var i :| OccursAt(s, sub, i);
          assert i != 0;
          assert s[1..][i - 1..i - 1 + |sub|] == s[i..i + |sub|];
          assert OccursAt(s[1..], sub, i - 1);
        }
      }
      b
  }

  /** Case-insensitive substring test, the model of `ILIKE '%q%'`. */
  predicate ContainsIgnoringCase(s: string, q: string) {
    Contains(LowerStr(s), LowerStr(q))
  }

  /** Code-point lexicographic order of text values. */
  predicate StrLe(a: string, b: string) {
    if a == [] then true
    else if b == [] then false
    else if a[0] != b[0] then a[0] < b[0]
    else StrLe(a[1..], b[1..])
  }

  lemma {:induction false} StrLeTotal(a: string, b: string)
    ensures StrLe(a, b) || StrLe(b, a)
  {
    if a != [] && b != [] && a[0] == b[0] {
      StrLeTotal(a[1..], b[1..]);
    }
  }

  lemma {:induction false} StrLeTransitive(a: string, b: string, c: string)
    requires StrLe(a, b) && StrLe(b, c)
    ensures StrLe(a, c)
  {
    if a != [] && b != [] && c != [] && a[0] == b[0] && b[0] == c[0] {
      StrLeTransitive(a[1..], b[1..], c[1..]);
    }
  }
}

=== FILE: validation.dfy ===
/** The shape of a schema validator's verdict: one error per failed check,
    in the order the schema declares its fields. */
module Validation {

  datatype FieldError<F> = FieldError(field: F, message: string)

  /** The errors of one check: none when it passes, its message when it fails. */
  function Check<F>(ok: bool, field: F, message: string): seq<FieldError<F>> {
    if ok then [] else [FieldError(field, message)]
  }

  predicate HasError<F(==)>(errors: seq<FieldError<F>>, field: F) {
    exists i :: 0 <= i < |errors| && errors[i].field == field
  }
}

=== FILE: visit_history.dfy ===
/** The visit history panel of a client's page: the add-visit form with its
    schema, what a submit does to the store and to the dialog, and the order
    in which the visits are listed. */
module VisitHistory {
  import opened Domain
  import opened Tables
  import opened Validation
  import Text
  import Seqs
  import ClientService
  import Data

  /** The price input after `z.coerce.number()`: a number, or `NaN` for
      text that is not one. */
  datatype PriceInput = Number(amount: real) | NotANumber

  datatype VisitFormValues = VisitFormValues(date: Option<Date>, treatmentNotes: string, price: PriceInput)

  datatype VisitField = VisitDate | TreatmentNotes | Price

  const DateRequired := "La data és requerida."
  const NotesRequired := "Les notes són requerides."
  const PricePositive := "El preu ha de ser un número positiu."
  /** zod's own message when coercion yields `NaN`. */
  const PriceNotANumber := "Expected number, received nan"

  /** The price the form starts from and returns to. */
  const DefaultPrice: real := 50.0

  /** Reference definition of a field `visitSchema` rejects. */
  predicate VisitFails(v: VisitFormValues, f: VisitField) {
    match f
    case VisitDate => v.date.None?
    case TreatmentNotes => v.treatmentNotes == ""
    case Price => v.price.NotANumber? || v.price.amount <= 0.0
  }

  predicate ValidVisit(v: VisitFormValues) {
    v.date.Some? && v.treatmentNotes != "" && v.price.Number? && v.price.amount > 0.0
  }

  /** `visitSchema`: a field has an error exactly when it is rejected; a
      price that is not a number gets zod's type error instead of the
      positivity message. */
  function ValidateVisit(v: VisitFormValues): (errors: seq<FieldError<VisitField>>)
    ensures forall f :: HasError(errors, f) <==> VisitFails(v, f)
    ensures errors == [] <==> ValidVisit(v)
    ensures forall e :: e in errors && e.field == Price ==>
      e.message == if v.price.NotANumber? then PriceNotANumber else PricePositive
  {
    var priceErrors :=
      match v.price
      case NotANumber => [FieldError(Price, PriceNotANumber)]
      case Number(amount) => Check(amount > 0.0, Price, PricePositive);
    var errors := Check(v.date.Some?, VisitDate, DateRequired)
      + Check(Text.JsLength(v.treatmentNotes) >= 1, TreatmentNotes, NotesRequired)
      + priceErrors;
    assert VisitFails(v, VisitDate) ==> errors[0].field == VisitDate;
    assert VisitFails(v, TreatmentNotes) ==> FieldError(TreatmentNotes, NotesRequired) in errors;
    assert VisitFails(v, Price) ==> errors[|errors| - 1].field == Price;
    errors
  }

  /** The visit a validated form sends: its date, its notes and its price
      as a number, which is positive. */
  function VisitPayload(v: VisitFormValues): (d: VisitData)
    requires ValidVisit(v)
    ensures d.price > 0.0
    ensures ToForm(d) == v
  {
    VisitData(v.date.value, v.treatmentNotes, v.price.amount)
  }

  /** The form showing a visit's fields. */
  function ToForm(d: VisitData): VisitFormValues {
    VisitFormValues(Some(d.date), d.treatmentNotes, Number(d.price))
  }

  lemma PayloadRoundTrip(d: VisitData)
    requires d.price > 0.0 && d.treatmentNotes != ""
    ensures ValidVisit(ToForm(d)) && VisitPayload(ToForm(d)) == d
  {
  }

  /** The form's default and reset values: today, no notes, the default price. */
  function ResetForm(now: Date): VisitFormValues {
    VisitFormValues(Some(now), "", Number(DefaultPrice))
  }

  /** A reset form cannot be sent again until notes are written. */
  lemma ResetFormNeedsNotes(now: Date)
    ensures ValidateVisit(ResetForm(now)) == [FieldError(TreatmentNotes, NotesRequired)]
  {
  }

  datatype VisitDialog = VisitDialog(open: bool, form: VisitFormValues)

  datatype VisitOutcome =
    | VisitRejected(errors: seq<FieldError<VisitField>>)   // the schema stopped the submit
    | VisitAdded(client: Client)                           // `onVisitAdded` receives the re-read client
    | VisitFailed                                          // the error notice

  datatype VisitStep = VisitStep(outcome: VisitOutcome, dialog: VisitDialog)

  /** `onSubmit` behind the schema: sends the payload; a returned client is
      handed to `onVisitAdded`, and the dialog closes with a reset form; a
      missing client takes the error path and leaves the dialog as it was. */
  function SubmitVisit(s: Store, clientId: Id, dialog: VisitDialog, now: Date, freshId: Id,
                       insertFails: bool, clientFails: bool, visitsFail: bool): (r: Reply<VisitStep>)
    ensures r.value.outcome.VisitRejected? <==> !ValidVisit(dialog.form)
    ensures r.value.outcome.VisitRejected? ==>
      r.store == s && r.value.dialog == dialog && r.value.outcome.errors == ValidateVisit(dialog.form)
    ensures r.value.outcome.VisitFailed? ==> r.value.dialog == dialog
    ensures r.value.outcome.VisitAdded? ==>
      && r.value.dialog == VisitDialog(false, ResetForm(now))
      && r.value.outcome.client.id == clientId
    ensures ValidVisit(dialog.form) && (insertFails || !HasKey(s.clients, ClientKey, clientId)) ==>
      r == Reply(s, VisitStep(VisitFailed, dialog))
    ensures ValidVisit(dialog.form) ==>
      var a := Data.AddVisit(s, clientId, VisitPayload(dialog.form), freshId, insertFails, clientFails, visitsFail);
      && r.store == a.store
      && (r.value.outcome.VisitAdded? <==> a.value.Some?)
      && (a.value.Some? ==> r.value.outcome.client == a.value.value)
    ensures r.value.outcome.VisitAdded? ==>
      && r.store.clients == s.clients && r.store.pending == s.pending
      && |r.store.visits| == |s.visits| + 1 && r.store.visits[..|s.visits|] == s.visits
      && r.store.visits[|s.visits|].client_id == clientId
      && var d := VisitPayload(dialog.form);
         ClientService.RowToVisit(r.store.visits[|s.visits|]) == Visit(freshId, d.date, d.treatmentNotes, d.price)
  {
    var errors := ValidateVisit(dialog.form);
    if errors != [] then Reply(s, VisitStep(VisitRejected(errors), dialog))
    else
      var added := Data.AddVisit(s, clientId, VisitPayload(dialog.form), freshId, insertFails, clientFails, visitsFail);
      match added.value
      case Some(c) => Reply(added.store, VisitStep(VisitAdded(c), VisitDialog(false, ResetForm(now))))
      case None => Reply(added.store, VisitStep(VisitFailed, dialog))
  }

  /** The error notice does not mean nothing was stored: when the re-read
      after a successful insert fails, the visit is in the store, yet the
      dialog stays open with the same values, inviting a second submit. */
  lemma FailedNoticeAfterStoredVisit(s: Store, clientId: Id, dialog: VisitDialog, now: Date, freshId: Id, visitsFail: bool)
    requires ValidVisit(dialog.form) && HasKey(s.clients, ClientKey, clientId) && !HasKey(s.visits, VisitKey, freshId)
    ensures var r := SubmitVisit(s, clientId, dialog, now, freshId, false, true, visitsFail);
      r.value == VisitStep(VisitFailed, dialog) && |r.store.visits| == |s.visits| + 1
  {
    ClientService.AddVisitStoredButUnreported(s, clientId, VisitPayload(dialog.form), freshId, visitsFail);
  }

  /** When only the visits query of the re-read fails, the visit is stored
      and the panel still receives the client, but with an empty history. */
  lemma VisitsErrorHandsOnEmptyHistory(s: Store, clientId: Id, dialog: VisitDialog, now: Date, freshId: Id)
    requires ValidVisit(dialog.form)
    requires Wellformed(s) && HasKey(s.clients, ClientKey, clientId) && !HasKey(s.visits, VisitKey, freshId)
    ensures var r := SubmitVisit(s, clientId, dialog, now, freshId, false, false, true);
      && r.value.outcome.VisitAdded? && r.value.outcome.client.history == []
      && |r.store.visits| == |s.visits| + 1
  {
    var i :| 0 <= i < |s.clients| && s.clients[i].id == clientId;
    var s' := ClientService.AddVisit(s, clientId, VisitPayload(dialog.form), freshId, false, false, true).store;
    assert s'.clients == s.clients;
    ClientService.GetClientFinds(s', i, true);
  }

  /** With no store error, submitting a valid form adds the visit to the
      client's history as the panel receives it. */
  lemma SubmitExtendsHistory(s: Store, clientId: Id, dialog: VisitDialog, now: Date, freshId: Id)
    requires Wellformed(s) && ValidVisit(dialog.form)
    requires HasKey(s.clients, ClientKey, clientId) && !HasKey(s.visits, VisitKey, freshId)
    ensures var before := ClientService.GetClient(s, clientId, false, false);
      var r := SubmitVisit(s, clientId, dialog, now, freshId, false, false, false);
      var d := VisitPayload(dialog.form);
      && before.Some? && r.value.outcome.VisitAdded?
      && multiset(r.value.outcome.client.history)
         == multiset(before.value.history) + multiset{Visit(freshId, d.date, d.treatmentNotes, d.price)}
  {
    ClientService.AddVisitExtendsHistory(s, clientId, VisitPayload(dialog.form), freshId);
  }

  // ---------------------------------------------------------------------
  // Listing order

  /** The comparator `b.date - a.date`. */
  predicate LaterVisitOrSame(a: Visit, b: Visit) {
    a.date >= b.date
  }

  /** `sortedVisits`: a sorted copy of the visits, latest first; the input
      sequence is a value and stays as it was. */
  function SortedVisits(visits: seq<Visit>): (r: seq<Visit>)
    ensures multiset(r) == multiset(visits)
    ensures ClientService.DateDescending(r)
  {
    Seqs.SortBy(visits, LaterVisitOrSame)
  }

  lemma DescendingRemoveAt(b: seq<Visit>, k: nat)
    requires k < |b| && ClientService.DateDescending(b)
    ensures ClientService.DateDescending(Seqs.RemoveAt(b, k))
  {
    var r := Seqs.RemoveAt(b, k);
    forall i, i' | 0 <= i < i' < |r| ensures r[i].date >= r[i'].date {
      assert r[i] == b[if i < k then i else i + 1];
      assert r[i'] == b[if i' < k then i' else i' + 1];
    }
  }

  /** The latest visit of one ordering sits somewhere in the other, whose
      first visit has the same date. */
  lemma HeadDatesAgree(a: seq<Visit>, b: seq<Visit>) returns (k: nat)
    requires |a| > 0 && multiset(a) == multiset(b)
    requires ClientService.DateDescending(a) && ClientService.DateDescending(b)
    ensures k < |b| && b[k] == a[0] && b[0].date == a[0].date
  {
    assert a[0] in multiset(b);
    k :| 0 <= k < |b| && b[k] == a[0];
    assert b[0] in multiset(a);
    var j :| 0 <= j < |a| && a[j] == b[0];
  }

  /** Dates agree position by position once they agree after taking the
      first visit of `a` out of both: everything `b` holds before that visit
      shares its date. */
  lemma DatesAfterRemoval(a: seq<Visit>, b: seq<Visit>, k: nat)
    requires |a| == |b| && k < |b| && b[k] == a[0] && b[0].date == a[0].date
    requires ClientService.DateDescending(b)
    requires forall i :: 0 <= i < |a| - 1 ==> Seqs.RemoveAt(a, 0)[i].date == Seqs.RemoveAt(b, k)[i].date
    ensures forall i :: 0 <= i < |a| ==> a[i].date == b[i].date
  {
    forall i | 0 < i < |a| ensures a[i].date == b[i].date {
      assert a[i] == Seqs.RemoveAt(a, 0)[i - 1];
      if i - 1 < k {
        assert Seqs.RemoveAt(b, k)[i - 1] == b[i - 1];
        assert b[0].date >= b[i].date >= b[k].date;
      } else {
        assert Seqs.RemoveAt(b, k)[i - 1] == b[i];
      }
    }
  }

  /** Two orderings of the same visits, both latest first, agree on the
      date at every position: only visits on the same date may trade places. */
  lemma {:induction false} DateOrderUnique(a: seq<Visit>, b: seq<Visit>)
    requires multiset(a) == multiset(b)
    requires ClientService.DateDescending(a) && ClientService.DateDescending(b)
    ensures |a| == |b|
    ensures forall i :: 0 <= i < |a| ==> a[i].date == b[i].date
    decreases |a|
  {
    assert |a| == |multiset(a)| == |multiset(b)| == |b|;
    if |a| > 0 {
      var k := HeadDatesAgree(a, b);
      DescendingRemoveAt(a, 0);
      DescendingRemoveAt(b, k);
      DateOrderUnique(Seqs.RemoveAt(a, 0), Seqs.RemoveAt(b, k));
      DatesAfterRemoval(a, b, k);
    }
  }

  /** Re-sorting the history `getClient` returns keeps its order of dates. */
  lemma SortedVisitsKeepsHistoryOrder(s: Store, id: Id, visitsFail: bool)
    requires ClientService.GetClient(s, id, false, visitsFail).Some?
    ensures var h := ClientService.GetClient(s, id, false, visitsFail).value.history;
      |SortedVisits(h)| == |h| && forall i :: 0 <= i < |h| ==> SortedVisits(h)[i].date == h[i].date
  {
    var h := ClientService.GetClient(s, id, false, visitsFail).value.history;
    DateOrderUnique(SortedVisits(h), h);
  }
}
